=== FILE: README.md ===
# Review-slot lifecycle of the journal metadata scripts, in Dafny

The repository keeps a journal's submissions as JSON records under
`metadata/submissions/<YYYY>-<MM>/sub_*.json` and manipulates them with small
command-line scripts. This project models the logic of five of them:

- **claim** (`scripts/claim-review-slot.js`): a reviewer claims one of a
  submission's review slots;
- **timeout sweep** (`scripts/check-review-timeouts.js`): slots whose claim is
  older than the timeout are released;
- **admin cleanup** (`scripts/admin-cleanup.js`): an administrator deletes a
  test submission, detaches it from its author and closes its pull request;
- **active-submission check** (`scripts/check-active-submission.js`): a user
  with a submission still under review may not open another;
- **image validation** (`scripts/validate-images.js`): the image links of a
  manuscript must be served as images and not from blacklisted hosts.

The store is a sequence of `StoreEntry(partition, fileName, doc)` in the order
the directory walk visits it. A file whose JSON does not parse is
`Doc.Corrupt`. Timestamps are integer milliseconds, and the clock is a
parameter (`now`). Every answer from outside the scripts is also a parameter:
the confirmation prompt, the GitHub responses, the HEAD responses and the URL
parser's host name.

The central invariant (`Records.WellFormed`) has three parts:
- the `filled` counter equals the number of reviewers whose status is not
  `expired` (a `submitted` review keeps its slot);
- the counter never exceeds `total`;
- no user is listed twice.

Claim and sweep each preserve it (`Claim.ClaimPreservesWellFormed`,
`Timeouts.SweepPreservesWellFormed`), and so does any interleaving of them
(`Lifecycle.ReplayPreservesWellFormed`). Expired reviewers stay in the list.
After a sweep releases a slot of a full record and a new reviewer claims it,
the list holds more entries than `total` (`Lifecycle.ReleasedSlotReopens`).

The timeout sweep is modelled twice:
- `Timeouts.Sweep` is a reference definition;
- `Timeouts.SweepSubmission` is a loop that visits the reviewers one by one,
  the way the script does, and is proved to compute the same thing.

Modules, one per file:

| file | module | models |
|---|---|---|
| common.dfy | Common | options, results, parsed-or-corrupt documents, `startsWith`/`endsWith`/`includes`, ASCII lower-casing |
| records.dfy | Records | the submission record, its review slots, the invariant |
| lookup.dfy | Lookup | the store, `findSubmission` and `getAllSubmissions` over `sub_*.json` files |
| claim.dfy | Claim | `claimSlot`, the claim command |
| timeouts.dfy | Timeouts | `checkAndReleaseTimeouts`, the timeout command |
| cleanup.dfy | Cleanup | id grammar, paths, `closePRAndDeleteBranch`, the cleanup command |
| active.dfy | ActiveCheck | `getUserActiveSubmission` and its exit status |
| images.dfy | Images | `extractImageUrls`, `isBlacklisted`, `validateImageUrl`, the command's verdict |
| lifecycle.dfy | Lifecycle | properties across claim and sweep |

Script behaviour the model keeps as written:
- The sweep skips only `submitted` and `expired` reviewers and decrements
  `filled` for each release (scripts/check-review-timeouts.js:64-75). So the
  counter the invariant tracks is the number of reviewers that are not
  `expired`, a `submitted` review included.
- The cleanup confirmation compares the lower-cased answer with `yes`
  (scripts/admin-cleanup.js:213).
- Declining the confirmation exits with status 0
  (scripts/admin-cleanup.js:213-216).
- Cleanup removes the record with `unlinkSync` and appends no history or
  timeline entry (scripts/admin-cleanup.js:239).
- Claim never reads the submission's `status`
  (scripts/claim-review-slot.js:35-56).

## Model

| member | source | states |
|---|---|---|
| Common.IncludesIsOccurrence | scripts/validate-images.js:34 | `includes`, searching left to right, is true exactly when the needle occurs somewhere in the string |
| Lookup.FindFrom | scripts/claim-review-slot.js:17-32 | the scan stops at the first `sub_*.json` file that is unreadable or matches, every earlier entry being neither; otherwise no `sub_*.json` entry matches and none is unreadable |
| Lookup.FindSubmission | scripts/claim-review-slot.js:13-33 | a found index holds a readable record with the id; "missing" means every `sub_*.json` file parses and carries another id |
| Lookup.ListFrom | scripts/check-review-timeouts.js:14-41 | the listing holds exactly the `sub_*.json` entries, in increasing scan order, all readable; an error names the first unreadable one |
| Claim.ClaimRecord | scripts/claim-review-slot.js:44-88 | full slots refuse first, then an existing reviewer of any status; success appends exactly one `claimed` reviewer at `now` as the last entry, leaves earlier reviewers and `total` unchanged, adds 1 to `filled`, appends one `claim` history entry and one `review_slot_claimed` event numbered with the new `filled`, stamps `updatedAt`, and changes nothing else |
| Claim.ClaimPreservesWellFormed | scripts/claim-review-slot.js:60-65 | a successful claim keeps the counter equal to the non-expired reviewers, within capacity, and the list free of duplicates |
| Claim.SecondClaimRefused | scripts/claim-review-slot.js:45-56 | the same user claiming again, at any later time, is refused with "slots full" if the record is now full, and with "already claimed" otherwise |
| Claim.ClaimIgnoresStatus | scripts/claim-review-slot.js:35-56 | whether a claim succeeds does not depend on the submission's status |
| Claim.ClaimSlot | scripts/claim-review-slot.js:35-91 | an unknown id gives not-found and an unreadable file met first gives a parse error; a found record is refused with exactly the record-level error (slots full before already claimed); on success only the found entry is rewritten, with the claimed record, and every other entry is unchanged |
| Claim.ClaimCommand | scripts/claim-review-slot.js:96-116 | exit 0 exactly when both arguments are given and the claim succeeds, and then the store is the one with the claimed record written; exit 1 leaves the store unchanged |
| Timeouts.DaysElapsed | scripts/check-review-timeouts.js:98 | the reported day count is the floor of the elapsed milliseconds over one day, for negative elapsed time too |
| Timeouts.SweepReviewers | scripts/check-review-timeouts.js:60-75 | the list keeps its length and order and each reviewer keeps user and claim time; a reviewer is expired with `expiredAt = now` exactly when the record is active and the reviewer is timed out, and is untouched otherwise (`submitted` and `expired` are never candidates) |
| Timeouts.StrictBoundary | scripts/check-review-timeouts.js:68-71 | a candidate on an active record expires iff `now - claimedAt` is strictly greater than the timeout |
| Timeouts.SweepAccounting | scripts/check-review-timeouts.js:51-115 | inactive records are left alone; `filled` drops by the number of releases, `total` stays, each release appends one history and one timeline entry after the old ones, and the record changes and is stamped iff something was released |
| Timeouts.SweepLogs | scripts/check-review-timeouts.js:77-108 | the j-th release concerns the j-th timed-out reviewer in list order and appends its `timeout_release` entry, its `review_slot_timeout` event by `system` with user, claim time and whole days elapsed, and its released-slot report |
| Timeouts.SweepPreservesWellFormed | scripts/check-review-timeouts.js:60-75 | the sweep keeps the counter equal to the non-expired reviewers, within capacity, and the list free of duplicates |
| Timeouts.SweepIdempotent | scripts/check-review-timeouts.js:64-75 | a second sweep at the same instant releases nothing and changes nothing |
| Timeouts.SweepSubmission | scripts/check-review-timeouts.js:51-116 | the script's loop over one record's reviewers produces exactly the reference sweep's record and released slots |
| Timeouts.CheckAndReleaseTimeouts | scripts/check-review-timeouts.js:43-119 | any unreadable `sub_*.json` file aborts the pass before anything is written; otherwise every record is swept, `releasedCount` equals the number of released slots, and exactly the records with a release are written |
| Timeouts.SweptStoreWellFormed | scripts/check-review-timeouts.js:51-116 | after a pass over the store every readable record still satisfies the invariant |
| Timeouts.TimeoutsCommand | scripts/check-review-timeouts.js:121-146 | without `--timeout-days` the timeout is 14 days; exit 1 exactly when some `sub_*.json` file is unreadable, with nothing written or released; otherwise exit 0 with the swept store and every released slot |
| Cleanup.ParseFormatted | scripts/admin-cleanup.js:40-44 | every id made of `sub_`, four digits, `_`, two digits, `_` and a non-empty word-character token parses, giving back its year and month |
| Cleanup.ParsedIsFormatted | scripts/admin-cleanup.js:40-44 | every id the parser accepts has exactly that shape |
| Cleanup.MonthNotRangeChecked | scripts/admin-cleanup.js:41-43 | a month of `13` is accepted |
| Cleanup.SubmissionPath | scripts/admin-cleanup.js:46-50 | a path exists iff the id parses; a malformed id is an error naming the id |
| Cleanup.PathIsScannable | scripts/admin-cleanup.js:46-50 | the path is that of the store entry `<id>.json` in partition `<YYYY>-<MM>` under `metadata/submissions/`, and that file name is one the store scans open |
| Cleanup.PathDeterminesId | scripts/admin-cleanup.js:46-50 | two ids with the same path are the same id |
| Cleanup.ClosePrAndDeleteBranch | scripts/admin-cleanup.js:56-115 | no token: false and no requests; true exactly when both requests answer and neither failure body throws (a failed PR answer needs a non-null JSON body, a failed branch answer anything but a `null` body); the branch request is sent iff the PR step completes, always after the PR request; the branch counts as deleted on success or 422 |
| Cleanup.ReturnsTrueDespiteFailures | scripts/admin-cleanup.js:83-110 | a 404 on the PR and a 500 on the branch with a readable body still make the function report true |
| Cleanup.UnreadablePrErrorSkipsBranch | scripts/admin-cleanup.js:83-88 | a failed PR answer whose body is `null` or not JSON ends the function with false before the branch request is sent |
| Cleanup.ConfirmedIff | scripts/admin-cleanup.js:213 | the confirmation accepts exactly the three letters y, e, s, each in either case |
| Cleanup.Detach | scripts/admin-cleanup.js:243-249 | the user's active submission is cleared, a positive count drops by one and a non-positive one stays, so a non-negative count never goes negative, and `updatedAt` is stamped |
| Cleanup.RunCleanup | scripts/admin-cleanup.js:160-259 | a malformed id, a missing or unreadable submission file, or an unreadable user file exits 1 with nothing changed; the prompt appears iff neither dry run nor force; declining or a dry run changes nothing; proceeding removes exactly the submission file, deletes it before writing the user record, and ends with the GitHub requests for the record's PR number and branch |
| Cleanup.DryRunIsInert | scripts/admin-cleanup.js:189-233 | a dry run, with or without force, never prompts, deletes, writes or calls GitHub |
| Cleanup.UserUpdate | scripts/admin-cleanup.js:243-251 | only the author's user record can change, and it does exactly when it exists and names this submission as active |
| Cleanup.DeletionPrecedesAndSurvivesGitHub | scripts/admin-cleanup.js:239-259 | the file is deleted before any GitHub request, and the GitHub answers change neither the resulting files nor the exit status |
| Cleanup.FirstIdArgument | scripts/admin-cleanup.js:146 | the chosen id is the first argument starting with `sub_`; none is chosen iff no argument starts with it |
| Cleanup.CleanupCommand | scripts/admin-cleanup.js:118-154 | help exits 0 and a missing id exits 1, both doing nothing; `--dry-run` anywhere on the line changes nothing; files change only in a run with an id and no dry run |
| ActiveCheck.IndexedId | scripts/check-active-submission.js:16-22 | an id is looked up iff the index parses, has the user and the entry's id is present and non-empty |
| ActiveCheck.GetUserActiveSubmission | scripts/check-active-submission.js:13-50 | a result carries the indexed id and an active status and is the first such record in scan order; no result means every such record comes after an unreadable file |
| ActiveCheck.InactiveMatchSkipped | scripts/check-active-submission.js:37-41 | a record with the indexed id but a finished status does not stop the scan; a later active one is returned |
| ActiveCheck.UnreadableHidesActive | scripts/check-active-submission.js:46-49 | an unreadable file before the active record makes the check report none |
| ActiveCheck.CheckActiveCommand | scripts/check-active-submission.js:52-72 | exit 0 iff a user name is given and no active submission is found; without an indexed id the exit status only depends on the argument |
| Images.RunLength | scripts/validate-images.js:20 | the run `[^)]+` stops exactly at the first `)` |
| Images.LinkTarget | scripts/validate-images.js:20 | a link match is `](`, a well-formed URL and `)`, and it consumes exactly those characters |
| Images.LazyLabel | scripts/validate-images.js:20 | `.*?` then the link: a match captures a well-formed URL and consumes at least `](`, the URL and `)` and no more than the text |
| Images.LazyLabelShape | scripts/validate-images.js:20 | a label match ends in `](`, the URL and `)`, and the lazily extended label in front of it holds no line terminator |
| Images.MatchAt | scripts/validate-images.js:20 | one attempt of the expression: text not starting with `![` does not match; a match captures a well-formed URL and consumes at least `![`, `](`, the URL and `)` |
| Images.ScanImages | scripts/validate-images.js:24-26 | the global `exec` loop yields only URLs with an `http://` or `https://` scheme, and no more of them than the text has characters |
| Images.ExtractImageUrls | scripts/validate-images.js:19-29 | every extracted URL starts with `http://` or `https://`, has at least one character after the scheme and contains no `)` |
| Images.ImagesNeedMarker | scripts/validate-images.js:20-28 | a URL is found only if `![` occurs in the text |
| Images.NoMarkerNoImages | scripts/validate-images.js:20-28 | text without `![` yields no URLs |
| Images.ExtractRendered | scripts/validate-images.js:19-29 | a document built from text without `!` and image links `![alt](url)` yields exactly the links' URLs, once each, in document order |
| Images.BlacklistIsSubstringMatch | scripts/validate-images.js:31-38 | a host is blacklisted iff one of the three listed domains occurs in it as a substring; an unparseable URL is not blacklisted |
| Images.ValidateImageUrl | scripts/validate-images.js:40-87 | a blacklisted URL is rejected whatever the network says; otherwise a URL is accepted iff the HEAD answer has a status below 500 and a content type starting with `image/`, with a missing header read as `''`; a timeout is rejected as a timeout after 3000 ms, other failures as failed requests |
| Images.ClientErrorWithImageTypeAccepted | scripts/validate-images.js:52-55 | a 404 answer that names an image type is accepted |
| Images.Rejections | scripts/validate-images.js:112 | the reported checks are exactly the rejected ones, and none are reported iff all are accepted |
| Images.ValidateImagesCommand | scripts/validate-images.js:89-128 | no path or an unreadable file exits 1; each extracted link has its own HEAD outcome, consulted only when the link's host is not blacklisted (no request is sent for a blacklisted host), and the results are in link order; exit 0 iff every check is accepted, so a document without images exits 0 |
| Images.BlacklistedImageFails | scripts/validate-images.js:42-48 | a document whose first image is on a blacklisted host fails |
| Images.RepeatedUrlCheckedPerLink | scripts/validate-images.js:107-109 | a URL linked twice is requested twice, and the two requests may end differently |
| Lifecycle.ReplayPreservesWellFormed | scripts/claim-review-slot.js:60-65 | any sequence of claims and timeout sweeps keeps the review-slot invariant |
| Lifecycle.ReleasedSlotReopens | scripts/check-review-timeouts.js:73-75 | after a timed-out slot on an active record is released, an unlisted user can claim even if the record was full; the list then holds one more entry than before, `total` is unchanged, the invariant holds, and a record that was full now lists more reviewers than `total` |
| Lifecycle.ExpiredReviewerCannotReclaim | scripts/claim-review-slot.js:50-56 | a reviewer whose slot was released stays listed as `expired` and cannot claim the same submission again |
| Lifecycle.FreshClaimSurvivesSweep | scripts/check-review-timeouts.js:68-71 | a claim is not expired by a sweep at the same instant with a non-negative timeout |
| Lifecycle.ClaimSlotPreservesWellFormed | scripts/claim-review-slot.js:35-91 | a claim through the store keeps every record of the store well formed |

## Left out

- File-system I/O is not modelled: directory listing order is the order of the store sequence, and reading and writing are store updates. A missing submissions directory (`ENOENT`, scripts/check-review-timeouts.js:33-38) is the empty store.
- JSON parsing is reduced to "parses or not" (`Doc.Corrupt`). Records of the wrong shape, such as a missing `reviewSlots` or a missing `index` field, are not modelled; the active check treats such an index like an unreadable one.
- JSON formatting and two-space indentation are not modelled.
- ISO-8601 dates are not modelled: timestamps are integer milliseconds and the clock is a parameter. An unparseable `claimedAt`, whose elapsed time would be `NaN`, is out of scope.
- Networking is not modelled: the GitHub `fetch` calls and the axios HEAD request are abstract outcomes passed in. The 3000 ms timeout appears as the `Aborted` outcome and in its rejection reason. The concurrency of `Promise.all` is not modelled: each link's HEAD outcome is an input indexed by its position, so it may differ between links, but the order in which the requests run is not represented.
- WHATWG URL parsing is not modelled: the host name, or its absence, is an input.
- The readline prompt is not modelled: the answer is an input string.
- Timeouts.TimeoutsCommand takes the integer `parseInt` would produce from `--timeout-days=`; a value that does not parse (`NaN`, floating-point behaviour) is not modelled, and neither is choosing the argument from `process.argv`.
- Help text, colours and console output are left out. Only what the commands decide and change is modelled.
- Races between scripts writing the same file are left out: the scripts take no locks, so there is nothing to state.
- Cleanup.Confirmed lower-cases ASCII letters only, not all of Unicode as `toLowerCase` does.
- Records.Submission keeps only the fields the five scripts read or write: id, title, author, status, PR number, branch, review slots, history, timeline and `updatedAt`. Other fields, such as the author's display name or the creation date, are not represented, so the "nothing else changes" clauses of `Claim.ClaimRecord` and `Timeouts.SweepAccounting` cover the modelled fields only; the scripts carry the others through unchanged.
- Cleanup.RunCleanup keeps only the user record's active id, count and stamp. Other user fields are carried unchanged by the script and are not represented.
- Cleanup.ClosePrAndDeleteBranch reduces the request URLs and headers to the PR number and the branch name.
- The cleanup path is relative to the repository root, not an absolute `path.join` result.

=== FILE: active.dfy ===
/** The one-active-submission gate (scripts/check-active-submission.js): a
    user may not open a new submission while one of theirs is still under
    review or awaiting revision. */
module ActiveCheck {
  import opened Common
  import opened Records
  import opened Lookup

  /** One value of `metadata/indexes/user_submissions.json`'s `index` map. */
  datatype IndexEntry = IndexEntry(activeSubmissionId: Option<string>)

  /** The index file: a map from user name to entry, or a file that cannot
      be read or parsed. */
  type UserIndex = Doc<map<string, IndexEntry>>

  /** The index names an active submission for `user`: the entry exists and
      its id is truthy (present and not empty). */
  function IndexedId(index: UserIndex, user: string): (r: Option<string>)
    ensures r.Some? <==> index.Valid? && user in index.value && index.value[user].activeSubmissionId.Some?
                         && index.value[user].activeSubmissionId.value != ""
    ensures r.Some? ==> r == index.value[user].activeSubmissionId
  {
    if index.Corrupt? || user !in index.value then None
    else match index.value[user].activeSubmissionId
      case None => None
      case Some(id) => if id == "" then None else Some(id)
  }

  /** `getUserActiveSubmission`: the first readable record carrying the
      indexed id with an active status. Every failure (unreadable index,
      unreadable record met before the match) reads as "none". */
  function GetUserActiveSubmission(index: UserIndex, store: Store, user: string): (r: Option<Submission>)
    ensures r.Some? ==> IndexedId(index, user).Some?
    ensures r.Some? ==> r.value.id == IndexedId(index, user).value && IsActiveStatus(r.value.status)
    ensures r.Some? ==> exists i :: 0 <= i < |store| && store[i].doc == Valid(r.value)
                                    && IsSubmissionFileName(store[i].fileName)
                                    && PassesOver(store, ActiveById(r.value.id), 0, i)
    ensures IndexedId(index, user).Some? && r.None? ==>
              forall i :: 0 <= i < |store| && Hit(store[i], ActiveById(IndexedId(index, user).value)) ==>
                exists j :: 0 <= j < i && Unreadable(store[j])
  {
    match IndexedId(index, user)
    case None => None
    case Some(id) =>
      match FindFrom(store, ActiveById(id), 0)
      case Found(i) => Some(store[i].doc.value)
      case _ => None
  }

  /** A record with the indexed id but a finished status does not end the
      scan: a later active copy is still found. */
  lemma InactiveMatchSkipped(index: UserIndex, user: string, done: StoreEntry, active: StoreEntry)
    requires IndexedId(index, user).Some?
    requires done.doc.Valid? && done.doc.value.id == IndexedId(index, user).value && !IsActiveStatus(done.doc.value.status)
    requires IsSubmissionFileName(active.fileName) && active.doc.Valid?
    requires active.doc.value.id == IndexedId(index, user).value && IsActiveStatus(active.doc.value.status)
    ensures GetUserActiveSubmission(index, [done, active], user) == Some(active.doc.value)
  {
    var q := ActiveById(IndexedId(index, user).value);
    assert FindFrom([done, active], q, 2) == Missing;
    assert FindFrom([done, active], q, 1) == Found(1);
  }

  /** An unreadable record in front of the active one hides it: the error is
      swallowed and the user passes the gate. */
  lemma UnreadableHidesActive(index: UserIndex, user: string, bad: StoreEntry, active: StoreEntry)
    requires IndexedId(index, user).Some?
    requires Unreadable(bad)
    requires Hit(active, ActiveById(IndexedId(index, user).value))
    ensures GetUserActiveSubmission(index, [bad, active], user) == None
  {
  }

  /** The exit status: 1 for a missing user name or an active submission, 0
      otherwise. An empty argument stands for a missing one. */
  function CheckActiveCommand(index: UserIndex, store: Store, user: string): (code: int)
    ensures code == 0 || code == 1
    ensures code == 0 <==> user != "" && GetUserActiveSubmission(index, store, user).None?
    ensures IndexedId(index, user).None? ==> code == (if user == "" then 1 else 0)
  {
    if user == "" then 1
    else if GetUserActiveSubmission(index, store, user).Some? then 1
    else 0
  }
}

=== FILE: claim.dfy ===
/** Claiming a review slot (`claimSlot` in scripts/claim-review-slot.js). */
module Claim {
  import opened Common
  import opened Records
  import opened Lookup

  datatype ClaimError =
    | NotFound          // no `sub_*.json` record carries the id
    | Unparseable       // the scan hit a file whose JSON does not parse
    | SlotsFull         // `filled >= total`
    | AlreadyClaimed    // the user is already in the reviewer list

  const CLAIM_ACTION := "claim"
  const SLOT_CLAIMED_EVENT := "review_slot_claimed"

  /** Some reviewer entry, of any status, belongs to `user`. */
  predicate HasReviewer(rs: seq<Reviewer>, user: string) {
    exists i :: 0 <= i < |rs| && rs[i].userId == user
  }

  /** The record after `user` took a slot at `now`. */
  function Claimed(s: Submission, user: string, now: int): Submission {
    var filled := s.slots.filled + 1;
    s.(slots := s.slots.(
         reviewers := s.slots.reviewers + [Reviewer(user, now, CLAIMED, None)],
         filled := filled,
         history := Some(Entries(s.slots.history) + [HistoryEntry(user, CLAIM_ACTION, now)])),
       timelines := Some(Entries(s.timelines) + [TimelineEntry(SLOT_CLAIMED_EVENT, now, user, SlotClaimed(filled))]),
       updatedAt := now)
  }

  /** The checks and the mutation of `claimSlot` on one record, in source order:
      the slots-full check wins over the already-claimed check. */
  function ClaimRecord(s: Submission, user: string, now: int): (r: Result<Submission, ClaimError>)
    ensures s.slots.filled >= s.slots.total ==> r == Err(SlotsFull)
    ensures s.slots.filled < s.slots.total && HasReviewer(s.slots.reviewers, user) ==> r == Err(AlreadyClaimed)
    ensures r.Ok? <==> s.slots.filled < s.slots.total && !HasReviewer(s.slots.reviewers, user)
    // exactly one reviewer appended, last, and the earlier ones untouched
    ensures r.Ok? ==> |r.value.slots.reviewers| == |s.slots.reviewers| + 1
    ensures r.Ok? ==> r.value.slots.reviewers[..|s.slots.reviewers|] == s.slots.reviewers
    ensures r.Ok? ==> r.value.slots.reviewers[|s.slots.reviewers|] == Reviewer(user, now, CLAIMED, None)
    // the counter moves by one and the capacity stays
    ensures r.Ok? ==> r.value.slots.filled == s.slots.filled + 1 <= r.value.slots.total == s.slots.total
    // one audit entry in each log, the timeline entry numbering the slot
    ensures r.Ok? ==> Entries(r.value.slots.history) == Entries(s.slots.history) + [HistoryEntry(user, CLAIM_ACTION, now)]
    ensures r.Ok? ==> Entries(r.value.timelines)
                      == Entries(s.timelines) + [TimelineEntry(SLOT_CLAIMED_EVENT, now, user, SlotClaimed(r.value.slots.filled))]
    // nothing else changes
    ensures r.Ok? ==> r.value.updatedAt == now
    ensures r.Ok? ==> r.value.(slots := s.slots, timelines := s.timelines, updatedAt := s.updatedAt) == s
  {
    if s.slots.filled >= s.slots.total then Err(SlotsFull)
    else if exists i | 0 <= i < |s.slots.reviewers| :: s.slots.reviewers[i].userId == user then Err(AlreadyClaimed)
    else Ok(Claimed(s, user, now))
  }

  /** A successful claim keeps the review-slot invariant: the counter still
      counts the reviewers holding a slot, stays within capacity, and the
      reviewer list stays free of duplicates. */
  lemma ClaimPreservesWellFormed(s: Submission, user: string, now: int)
    requires WellFormed(s)
    requires ClaimRecord(s, user, now).Ok?
    ensures WellFormed(ClaimRecord(s, user, now).value)
  {
    var s' := ClaimRecord(s, user, now).value;
    var rs := s.slots.reviewers;
    OccupiedSnoc(rs, Reviewer(user, now, CLAIMED, None));
    assert s'.slots.reviewers == rs + [Reviewer(user, now, CLAIMED, None)];
    forall i, j | 0 <= i < j < |s'.slots.reviewers|
      ensures s'.slots.reviewers[i].userId != s'.slots.reviewers[j].userId
    {
      if j == |rs| {
        assert s'.slots.reviewers[i] == rs[i];
      }
    }
  }

  /** Claiming a second time with the same user is refused, however much
      time has passed: with the slots-full check first. */
  lemma SecondClaimRefused(s: Submission, user: string, now: int, later: int)
    requires ClaimRecord(s, user, now).Ok?
    ensures var s' := ClaimRecord(s, user, now).value;
            ClaimRecord(s', user, later) == (if s'.slots.filled >= s'.slots.total then Err(SlotsFull) else Err(AlreadyClaimed))
  {
    var s' := ClaimRecord(s, user, now).value;
    assert s'.slots.reviewers[|s.slots.reviewers|].userId == user;
  }

  /** The claim does not look at the submission's status: a rejected or
      accepted submission can be claimed like one under review. */
  lemma ClaimIgnoresStatus(s: Submission, status: string, user: string, now: int)
    ensures ClaimRecord(s.(status := status), user, now).Ok? == ClaimRecord(s, user, now).Ok?
  {
  }

  /** `claimSlot` against the store: look the record up, check, and write the
      updated record back to the file it was read from. */
  function ClaimSlot(store: Store, id: string, user: string, now: int): (r: Result<Store, ClaimError>)
    ensures FindSubmission(store, id).Missing? ==> r == Err(NotFound)
    ensures FindSubmission(store, id).ParseError? ==> r == Err(Unparseable)
    ensures r.Ok? ==> FindSubmission(store, id).Found?
    ensures r.Ok? ==> |r.value| == |store|
    ensures r.Ok? ==> var i := FindSubmission(store, id).index;
              && r.value[i].partition == store[i].partition
              && r.value[i].fileName == store[i].fileName
              && r.value[i].doc.Valid?
              && ClaimRecord(store[i].doc.value, user, now) == Ok(r.value[i].doc.value)
              && forall j :: 0 <= j < |store| && j != i ==> r.value[j] == store[j]
    ensures FindSubmission(store, id).Found? ==>
              var s := store[FindSubmission(store, id).index].doc.value;
              r.Err? <==> ClaimRecord(s, user, now).Err?
    ensures FindSubmission(store, id).Found? && r.Err? ==>
              r.error == ClaimRecord(store[FindSubmission(store, id).index].doc.value, user, now).error
  {
    match FindSubmission(store, id)
    case Missing => Err(NotFound)
    case ParseError(_) => Err(Unparseable)
    case Found(i) =>
      match ClaimRecord(store[i].doc.value, user, now)
      case Err(e) => Err(e)
      case Ok(s') => Ok(store[i := store[i].(doc := Valid(s'))])
  }

  /** The command line: exit status 0 with the written store, or 1 with the
      store untouched (missing arguments, or any failed check). An empty
      argument stands for a missing one. */
  function ClaimCommand(store: Store, id: string, user: string, now: int): (out: (int, Store))
    ensures out.0 == 0 || out.0 == 1
    ensures out.0 == 1 ==> out.1 == store
    ensures out.0 == 0 <==> id != "" && user != "" && ClaimSlot(store, id, user, now).Ok?
    ensures out.0 == 0 ==> out.1 == ClaimSlot(store, id, user, now).value
  {
    if id == "" || user == "" then (1, store)
    else match ClaimSlot(store, id, user, now)
      case Ok(store') => (0, store')
      case Err(_) => (1, store)
  }
}

=== FILE: cleanup.dfy ===
/** Administrative deletion of a submission (scripts/admin-cleanup.js): the
    id grammar and path derivation, the best-effort GitHub calls, and the
    decision flow of the command. */
module Cleanup {
  import opened Common
  import opened Records
  import Lookup

  // ---------------------------------------------------------------------
  // Submission ids and paths

  predicate IsAsciiDigit(c: char) {
    '0' <= c <= '9'
  }

  /** `\w` without the Unicode flag. */
  predicate IsWordChar(c: char) {
    'a' <= c <= 'z' || 'A' <= c <= 'Z' || IsAsciiDigit(c) || c == '_'
  }

  predicate AllDigits(s: string) {
    forall k :: 0 <= k < |s| ==> IsAsciiDigit(s[k])
  }

  predicate AllWordChars(s: string) {
    forall k :: 0 <= k < |s| ==> IsWordChar(s[k])
  }

  /** The year and month captured by the id pattern. */
  datatype IdParts = IdParts(year: string, month: string)

  /** `^sub_(\d{4})_(\d{2})_\w+$`: every group has a fixed width except the
      trailing token, so the match is decided position by position. */
  function ParseSubmissionId(id: string): Option<IdParts> {
    if |id| >= 13 && id[..4] == "sub_" && AllDigits(id[4..8]) && id[8] == '_'
       && AllDigits(id[9..11]) && id[11] == '_' && AllWordChars(id[12..])
    then Some(IdParts(id[4..8], id[9..11]))
    else None
  }

  /** The shape of a well-formed id: four digits, two digits, and a
      non-empty token of word characters. */
  predicate IsIdShape(year: string, month: string, token: string) {
    |year| == 4 && AllDigits(year) && |month| == 2 && AllDigits(month) && |token| >= 1 && AllWordChars(token)
  }

  function FormatSubmissionId(year: string, month: string, token: string): string {
    "sub_" + year + "_" + month + "_" + token
  }

  /** The parser reads back the year and month of every well-formed id. */
  lemma ParseFormatted(year: string, month: string, token: string)
    requires IsIdShape(year, month, token)
    ensures ParseSubmissionId(FormatSubmissionId(year, month, token)) == Some(IdParts(year, month))
  {
    var id := FormatSubmissionId(year, month, token);
    assert id[..4] == "sub_";
    assert id[4..8] == year;
    assert id[9..11] == month;
    assert id[12..] == token;
  }

  /** The parser accepts nothing else: every accepted id is the formatting of
      its year, its month and some well-formed token. */
  lemma ParsedIsFormatted(id: string)
    requires ParseSubmissionId(id).Some?
    ensures var p := ParseSubmissionId(id).value;
            exists token :: IsIdShape(p.year, p.month, token) && id == FormatSubmissionId(p.year, p.month, token)
  {
    var token := id[12..];
    assert id == FormatSubmissionId(id[4..8], id[9..11], token);
  }

  /** The month is not range-checked: a thirteenth month is accepted. */
  lemma MonthNotRangeChecked()
    ensures ParseSubmissionId("sub_2025_13_x") == Some(IdParts("2025", "13"))
  {
    var id := "sub_2025_13_x";
    assert id[..4] == "sub_";
    assert id[4..8] == "2025";
    assert id[9..11] == "13";
    assert id[12..] == "x";
  }

  datatype CleanupError = InvalidIdFormat(id: string)

  const SUBMISSIONS_DIR := "metadata/submissions/"
  const USERS_DIR := "metadata/users/"

  /** `getSubmissionPath`: `metadata/submissions/<YYYY>-<MM>/<id>.json`,
      relative to the repository root, or an error for a malformed id. */
  function SubmissionPath(id: string): (r: Result<string, CleanupError>)
    ensures r.Ok? <==> ParseSubmissionId(id).Some?
    ensures r.Err? ==> r.error == InvalidIdFormat(id)
  {
    match ParseSubmissionId(id)
    case None => Err(InvalidIdFormat(id))
    case Some(p) => Ok(SUBMISSIONS_DIR + p.year + "-" + p.month + "/" + id + ".json")
  }

  /** Where a store entry lives on disk: its partition directory under
      `metadata/submissions/`, then its file name. */
  function EntryPath(e: Lookup.StoreEntry): string {
    SUBMISSIONS_DIR + e.partition + "/" + e.fileName
  }

  /** The derived path is that of the store entry in the partition named by
      the id's year and month with file name `<id>.json`, and that file name
      is one the directory scans open. */
  lemma PathIsScannable(id: string, doc: Doc<Submission>)
    requires ParseSubmissionId(id).Some?
    ensures var p := ParseSubmissionId(id).value;
            && SubmissionPath(id) == Ok(EntryPath(Lookup.StoreEntry(p.year + "-" + p.month, id + ".json", doc)))
            && Lookup.IsSubmissionFileName(id + ".json")
  {
    var p := ParseSubmissionId(id).value;
    assert SUBMISSIONS_DIR + p.year + "-" + p.month + "/" + id + ".json"
        == SUBMISSIONS_DIR + (p.year + "-" + p.month) + "/" + (id + ".json");
    var f := id + ".json";
    assert f[..4] == id[..4];
    assert f[|f| - 5..] == ".json";
  }

  /** Distinct ids never share a path. */
  lemma PathDeterminesId(a: string, b: string)
    requires SubmissionPath(a).Ok? && SubmissionPath(b).Ok?
    requires SubmissionPath(a) == SubmissionPath(b)
    ensures a == b
  {
    var pa := SubmissionPath(a).value;
    var n := |SUBMISSIONS_DIR| + 8;
    assert |pa| == n + |a| + 5;
    assert pa[n..|pa| - 5] == a;
    assert SubmissionPath(b).value[n..|pa| - 5] == b;
  }

  function UserPath(userId: string): string {
    USERS_DIR + userId + ".json"
  }

  // ---------------------------------------------------------------------
  // The GitHub collaborator

  /** What `response.json()` makes of a response body: it throws (the body
      is not JSON), it yields `null`, or it yields some other value. Reading
      `.message` off `null` throws; off any other value it does not. */
  datatype Body = NotJson | JsonNull | JsonValue

  /** How the `PATCH .../pulls/<n>` request came back: a status and its
      body, or a rejected `fetch`. */
  datatype PrResponse = PrResponded(status: int, body: Body) | PrNetworkError

  /** How the `DELETE .../git/refs/heads/<branch>` request came back. */
  datatype BranchResponse = BranchResponded(status: int, body: Body) | BranchNetworkError

  /** `response.ok` */
  predicate IsOk(status: int) {
    200 <= status <= 299
  }

  datatype Request = ClosePullRequest(prNumber: int) | DeleteBranch(branchName: string)

  /** What `closePRAndDeleteBranch` did: its return value, the requests it
      sent in order, and whether it reported the PR closed and the branch gone. */
  datatype GitHubReport = GitHubReport(returned: bool, requests: seq<Request>, prClosed: bool, branchGone: bool)

  /** The token is usable: present and not the empty string. */
  predicate HasToken(token: Option<string>) {
    token.Some? && token.value != ""
  }

  /** The PR step completes without throwing: a success is not read further;
      a failure's body is parsed and its `message` read, which throws unless
      the body is a non-null JSON value. */
  predicate PrStepCompletes(pr: PrResponse) {
    pr.PrResponded? && (IsOk(pr.status) || pr.body.JsonValue?)
  }

  /** The branch step completes without throwing: a failure's unparseable
      body becomes `{}`, and only a `null` body makes reading `message` throw. */
  predicate BranchStepCompletes(branch: BranchResponse) {
    branch.BranchResponded? && (IsOk(branch.status) || branch.status == 422 || !branch.body.JsonNull?)
  }

  /** `closePRAndDeleteBranch`. Every throw inside the `try` (a rejected
      `fetch`, an unparseable or `null` error body) is caught and gives `false`. */
  function ClosePrAndDeleteBranch(prNumber: int, branchName: string, token: Option<string>,
                                  pr: PrResponse, branch: BranchResponse): (g: GitHubReport)
    ensures !HasToken(token) ==> g == GitHubReport(false, [], false, false)
    ensures g.returned <==> HasToken(token) && PrStepCompletes(pr) && BranchStepCompletes(branch)
    ensures DeleteBranch(branchName) in g.requests <==> HasToken(token) && PrStepCompletes(pr)
    ensures HasToken(token) && PrStepCompletes(pr) ==> g.requests == [ClosePullRequest(prNumber), DeleteBranch(branchName)]
    ensures HasToken(token) && !PrStepCompletes(pr) ==> g.requests == [ClosePullRequest(prNumber)]
    ensures g.prClosed <==> HasToken(token) && pr.PrResponded? && IsOk(pr.status)
    ensures g.branchGone <==> g.returned && (IsOk(branch.status) || branch.status == 422)
  {
    if !HasToken(token) then GitHubReport(false, [], false, false)
    else
      match pr
      case PrNetworkError => GitHubReport(false, [ClosePullRequest(prNumber)], false, false)
      case PrResponded(prStatus, prBody) =>
        if !IsOk(prStatus) && !prBody.JsonValue? then GitHubReport(false, [ClosePullRequest(prNumber)], false, false)
        else
          var both := [ClosePullRequest(prNumber), DeleteBranch(branchName)];
          match branch
          case BranchNetworkError => GitHubReport(false, both, IsOk(prStatus), false)
          case BranchResponded(branchStatus, branchBody) =>
            if IsOk(branchStatus) || branchStatus == 422 then GitHubReport(true, both, IsOk(prStatus), true)
            else if branchBody.JsonNull? then GitHubReport(false, both, IsOk(prStatus), false)
            else GitHubReport(true, both, IsOk(prStatus), false)
  }

  /** Once both requests have answered without throwing, the function
      reports success even when both answers were failures. */
  lemma ReturnsTrueDespiteFailures(prNumber: int, branchName: string, token: string, branchBody: Body)
    requires token != ""
    requires !branchBody.JsonNull?
    ensures var g := ClosePrAndDeleteBranch(prNumber, branchName, Some(token),
                                             PrResponded(404, JsonValue), BranchResponded(500, branchBody));
            g.returned && !g.prClosed && !g.branchGone
  {
  }

  /** A failed PR request whose error body is `null` or not JSON at all
      throws before the branch request: only the PR request is sent and the
      function reports failure, whatever the branch would have answered. */
  lemma UnreadablePrErrorSkipsBranch(prNumber: int, branchName: string, token: string, status: int,
                                     body: Body, branch: BranchResponse)
    requires token != "" && !IsOk(status) && !body.JsonValue?
    ensures ClosePrAndDeleteBranch(prNumber, branchName, Some(token), PrResponded(status, body), branch)
            == GitHubReport(false, [ClosePullRequest(prNumber)], false, false)
  {
  }

  // ---------------------------------------------------------------------
  // The command

  /** A user record (`metadata/users/<id>.json`). */
  datatype User = User(activeSubmissionId: Option<string>, submissionCount: int, updatedAt: int)

  /** The files the command reads and writes, keyed by path. This is the
      same directory tree as a `Store`, seen by path rather than by scan: the
      record at `submissions[path]` is the document of the store entry `e`
      with `EntryPath(e) == path` (see `PathIsScannable`). The command opens
      one file by its derived path and never scans, so a map is its view. */
  datatype Disk = Disk(submissions: map<string, Doc<Submission>>, users: map<string, Doc<User>>)

  /** `--dry-run`, `--force`, and `GITHUB_TOKEN`. */
  datatype Options = Options(dryRun: bool, force: bool, token: Option<string>)

  /** The observable steps, in the order they happen. */
  datatype Effect =
    | Prompted
    | DeletedSubmission(path: string)
    | WroteUser(path: string)
    | Sent(request: Request)

  datatype CleanupRun = CleanupRun(exitCode: int, disk: Disk, effects: seq<Effect>)

  /** The confirmation: the answer lower-cased is `yes`. */
  predicate Confirmed(answer: string) {
    Lower(answer) == "yes"
  }

  /** Confirmation accepts `yes` in any mix of cases, and nothing else. */
  lemma ConfirmedIff(answer: string)
    ensures Confirmed(answer) <==>
            |answer| == 3 && answer[0] in "yY" && answer[1] in "eE" && answer[2] in "sS"
  {
    if |answer| == 3 {
      var l := Lower(answer);
      assert l == "yes" <==> l[0] == 'y' && l[1] == 'e' && l[2] == 's';
    }
  }

  /** The user record once its active submission is deleted. */
  function Detach(u: User, now: int): (u': User)
    ensures u'.activeSubmissionId == None
    ensures u.submissionCount > 0 ==> u'.submissionCount == u.submissionCount - 1
    ensures u.submissionCount <= 0 ==> u'.submissionCount == u.submissionCount
    ensures u.submissionCount >= 0 ==> u'.submissionCount >= 0
    ensures u'.updatedAt == now
  {
    u.(activeSubmissionId := None,
       submissionCount := if u.submissionCount > 0 then u.submissionCount - 1 else u.submissionCount,
       updatedAt := now)
  }

  /** The user record is rewritten: it exists and points at this submission. */
  predicate OwnsAsActive(user: Option<User>, id: string) {
    user.Some? && user.value.activeSubmissionId == Some(id)
  }

  function SentAll(requests: seq<Request>): (es: seq<Effect>)
    ensures |es| == |requests|
    ensures forall k :: 0 <= k < |es| ==> es[k] == Sent(requests[k])
  {
    seq(|requests|, k requires 0 <= k < |requests| => Sent(requests[k]))
  }

  /** The submission file exists and parses, and so does the author's user
      file if there is one: the command gets as far as the confirmation. */
  predicate Loadable(disk: Disk, path: string) {
    && path in disk.submissions
    && disk.submissions[path].Valid?
    && var up := UserPath(disk.submissions[path].value.authorId);
       up !in disk.users || disk.users[up].Valid?
  }

  /** The command deletes: not a dry run, and either forced or confirmed. */
  predicate Proceeds(opts: Options, answer: string) {
    !opts.dryRun && (opts.force || Confirmed(answer))
  }

  /** `main` of scripts/admin-cleanup.js once the id, flags and token have
      been read. `answer` is what the prompt would read, `now` the clock, and
      `pr`/`branch` what GitHub would answer. */
  function RunCleanup(id: string, opts: Options, disk: Disk, answer: string, now: int,
                      pr: PrResponse, branch: BranchResponse): (run: CleanupRun)
    ensures SubmissionPath(id).Err? ==> run == CleanupRun(1, disk, [])
    ensures SubmissionPath(id).Ok? && !Loadable(disk, SubmissionPath(id).value) ==> run == CleanupRun(1, disk, [])
    ensures run.exitCode == 1 <==> SubmissionPath(id).Err? || !Loadable(disk, SubmissionPath(id).value)
    ensures run.exitCode == 0 || run.exitCode == 1
    // only a run that proceeds changes anything
    ensures !Proceeds(opts, answer) ==> run.disk == disk
    ensures opts.dryRun ==> run.effects == []
    ensures Prompted in run.effects <==> run.exitCode == 0 && !opts.dryRun && !opts.force
    ensures run.exitCode == 0 && !Proceeds(opts, answer) ==> run.effects == (if opts.dryRun then [] else [Prompted])
    // a run that proceeds deletes exactly the submission file
    ensures run.exitCode == 0 && Proceeds(opts, answer) ==>
              && var path := SubmissionPath(id).value;
              && run.disk.submissions == disk.submissions - {path}
              && DeletedSubmission(path) in run.effects
    // the record is deleted before the user record is written
    ensures forall d, w :: (0 <= d < |run.effects| && 0 <= w < |run.effects| &&
                            run.effects[d].DeletedSubmission? && run.effects[w].WroteUser?) ==> d < w
    // and then sends the GitHub requests for the deleted record's PR and branch
    ensures run.exitCode == 0 && Proceeds(opts, answer) ==>
              && var sub := disk.submissions[SubmissionPath(id).value].value;
              && var gh := ClosePrAndDeleteBranch(sub.prNumber, sub.branchName, opts.token, pr, branch);
              && |gh.requests| <= |run.effects|
              && run.effects[|run.effects| - |gh.requests|..] == SentAll(gh.requests)
  {
    match SubmissionPath(id)
    case Err(_) => CleanupRun(1, disk, [])
    case Ok(path) =>
      if !Loadable(disk, path) then CleanupRun(1, disk, [])
      else
        var sub := disk.submissions[path].value;
        var up := UserPath(sub.authorId);
        var user := if up in disk.users then Some(disk.users[up].value) else None;
        var asks := !opts.dryRun && !opts.force;
        var prompt := if asks then [Prompted] else [];
        if asks && !Confirmed(answer) then CleanupRun(0, disk, prompt)
        else if opts.dryRun then CleanupRun(0, disk, [])
        else
          var deleted := disk.(submissions := disk.submissions - {path});
          var touched := OwnsAsActive(user, id);
          var after := if touched then deleted.(users := deleted.users[up := Valid(Detach(user.value, now))]) else deleted;
          var userWrite := if touched then [WroteUser(up)] else [];
          var gh := ClosePrAndDeleteBranch(sub.prNumber, sub.branchName, opts.token, pr, branch);
          CleanupRun(0, after, prompt + [DeletedSubmission(path)] + userWrite + SentAll(gh.requests))
  }

  /** A dry run never prompts, deletes, writes or calls GitHub, with or
      without `--force`, whatever the answer and the clock. */
  lemma DryRunIsInert(id: string, force: bool, token: Option<string>, disk: Disk, answer: string, now: int,
                      pr: PrResponse, branch: BranchResponse)
    ensures var run := RunCleanup(id, Options(true, force, token), disk, answer, now, pr, branch);
            run.disk == disk && run.effects == []
  {
  }

  /** The user record changes only when it exists and names this submission
      as active; then its pointer is cleared, its count drops by one but not
      below zero, and it is stamped. No other user record changes. */
  lemma UserUpdate(id: string, opts: Options, disk: Disk, answer: string, now: int,
                   pr: PrResponse, branch: BranchResponse)
    requires SubmissionPath(id).Ok? && Loadable(disk, SubmissionPath(id).value)
    requires Proceeds(opts, answer)
    ensures var run := RunCleanup(id, opts, disk, answer, now, pr, branch);
            var up := UserPath(disk.submissions[SubmissionPath(id).value].value.authorId);
            && (forall p :: p != up ==> (p in run.disk.users <==> p in disk.users))
            && (forall p :: p in disk.users && p != up ==> run.disk.users[p] == disk.users[p])
            && (up in disk.users && disk.users[up].value.activeSubmissionId == Some(id) ==>
                  && up in run.disk.users
                  && run.disk.users[up] == Valid(Detach(disk.users[up].value, now))
                  && WroteUser(up) in run.effects)
            && (!(up in disk.users && disk.users[up].value.activeSubmissionId == Some(id)) ==>
                  run.disk.users == disk.users && WroteUser(up) !in run.effects)
  {
  }

  /** The file is deleted before any request goes to GitHub, and the GitHub
      answers change neither the disk nor the exit status: nothing is rolled
      back when the calls fail. */
  lemma DeletionPrecedesAndSurvivesGitHub(id: string, opts: Options, disk: Disk, answer: string, now: int,
                                          pr: PrResponse, branch: BranchResponse,
                                          pr': PrResponse, branch': BranchResponse)
    requires SubmissionPath(id).Ok? && Loadable(disk, SubmissionPath(id).value)
    requires Proceeds(opts, answer)
    ensures var run := RunCleanup(id, opts, disk, answer, now, pr, branch);
            var path := SubmissionPath(id).value;
            && (exists d :: 0 <= d < |run.effects| && run.effects[d] == DeletedSubmission(path)
                  && forall k :: 0 <= k < |run.effects| && run.effects[k].Sent? ==> d < k)
            && RunCleanup(id, opts, disk, answer, now, pr', branch').disk == run.disk
            && RunCleanup(id, opts, disk, answer, now, pr', branch').exitCode == run.exitCode == 0
  {
    var run := RunCleanup(id, opts, disk, answer, now, pr, branch);
    var path := SubmissionPath(id).value;
    var sub := disk.submissions[path].value;
    var up := UserPath(sub.authorId);
    var user := if up in disk.users then Some(disk.users[up].value) else None;
    var prompt: seq<Effect> := if !opts.dryRun && !opts.force then [Prompted] else [];
    var userWrite := if OwnsAsActive(user, id) then [WroteUser(up)] else [];
    var gh := ClosePrAndDeleteBranch(sub.prNumber, sub.branchName, opts.token, pr, branch);
    assert run.effects == prompt + [DeletedSubmission(path)] + userWrite + SentAll(gh.requests);
    var d := |prompt|;
    assert run.effects[d] == DeletedSubmission(path);
    forall k | 0 <= k < |run.effects| && run.effects[k].Sent?
      ensures d < k
    {
    }
  }

  // ---------------------------------------------------------------------
  // The command line

  /** The first argument that starts with `sub_`, as `args.find` picks it. */
  function FirstIdArgument(args: seq<string>): (r: Option<string>)
    ensures r.Some? ==> exists k :: 0 <= k < |args| && args[k] == r.value && StartsWith(r.value, "sub_")
                          && forall j :: 0 <= j < k ==> !StartsWith(args[j], "sub_")
    ensures r.None? <==> forall k :: 0 <= k < |args| ==> !StartsWith(args[k], "sub_")
  {
    if args == [] then None
    else if StartsWith(args[0], "sub_") then Some(args[0])
    else
      var rest := FirstIdArgument(args[1..]);
      assert forall k :: 1 <= k < |args| ==> args[k] == args[1..][k - 1];
      rest
  }

  predicate WantsHelp(args: seq<string>) {
    |args| == 0 || "--help" in args || "-h" in args
  }

  /** The whole command: help exits 0 and does nothing, a missing id exits
      1 and does nothing, and otherwise the flags anywhere on the line set
      the options of the run. */
  function CleanupCommand(args: seq<string>, token: Option<string>, disk: Disk, answer: string, now: int,
                          pr: PrResponse, branch: BranchResponse): (run: CleanupRun)
    ensures WantsHelp(args) ==> run == CleanupRun(0, disk, [])
    ensures !WantsHelp(args) && FirstIdArgument(args).None? ==> run == CleanupRun(1, disk, [])
    ensures "--dry-run" in args ==> run.disk == disk && run.effects == []
    ensures run.disk != disk ==> "--dry-run" !in args && !WantsHelp(args) && FirstIdArgument(args).Some?
    ensures !WantsHelp(args) && FirstIdArgument(args).Some? ==>
              run == RunCleanup(FirstIdArgument(args).value, Options("--dry-run" in args, "--force" in args, token),
                                disk, answer, now, pr, branch)
  {
    if WantsHelp(args) then CleanupRun(0, disk, [])
    else match FirstIdArgument(args)
      case None => CleanupRun(1, disk, [])
      case Some(id) => RunCleanup(id, Options("--dry-run" in args, "--force" in args, token), disk, answer, now, pr, branch)
  }
}

=== FILE: common.dfy ===
/** Shared vocabulary of the scripts: optional values, results, the content
    of a JSON file on disk, and the string predicates the scripts rely on
    (`startsWith`, `endsWith`, `includes`). */
module Common {

  /** A value that may be absent: JSON `null`/`undefined`, or a missing field. */
  datatype Option<+T> = None | Some(value: T) {

    /** The value, or `default` when absent (JavaScript's `x || default`). */
    function GetOr(default: T): T {
      match this
      case Some(v) => v
      case None => default
    }
  }

  /** An operation that either produces a value or fails with an error. */
  datatype Result<+T, +E> = Ok(value: T) | Err(error: E)

  /** The content of a JSON file: it parses into a `T`, or `JSON.parse` throws. */
  datatype Doc<+T> = Valid(value: T) | Corrupt

  /** `s.startsWith(prefix)` */
  predicate StartsWith(s: string, prefix: string) {
    |prefix| <= |s| && s[..|prefix|] == prefix
  }

  /** `s.endsWith(suffix)` */
  predicate EndsWith(s: string, suffix: string) {
    |suffix| <= |s| && s[|s| - |suffix|..] == suffix
  }

  /** `needle` occurs in `s` starting at position `i`. */
  predicate OccursAt(needle: string, s: string, i: int) {
    0 <= i <= |s| - |needle| && s[i..i + |needle|] == needle
  }

  /** `needle` occurs as a contiguous piece of `s`. */
  ghost predicate OccursIn(needle: string, s: string) {
    exists i :: OccursAt(needle, s, i)
  }

  /** `s.includes(needle)`, computed by trying every start position from the left. */
  function Includes(s: string, needle: string): (b: bool)
    decreases |s|
  {
    if StartsWith(s, needle) then true
    else if |s| == 0 then false
    else Includes(s[1..], needle)
  }

  /** The left-to-right search finds `needle` exactly when it occurs somewhere. */
  lemma {:induction false} IncludesIsOccurrence(s: string, needle: string)
    ensures Includes(s, needle) <==> OccursIn(needle, s)
    decreases |s|
  {
    if StartsWith(s, needle) {
      assert OccursAt(needle, s, 0);
    } else if |s| == 0 {
    } else {
      IncludesIsOccurrence(s[1..], needle);
      if OccursIn(needle, s[1..]) {
        var i :| OccursAt(needle, s[1..], i);
        assert s[i + 1..i + 1 + |needle|] == s[1..][i..i + |needle|];
        assert OccursAt(needle, s, i + 1);
      }
      if OccursIn(needle, s) {
        var i :| OccursAt(needle, s, i);
        if i != 0 {
          assert s[1..][i - 1..i - 1 + |needle|] == s[i..i + |needle|];
          assert OccursAt(needle, s[1..], i - 1);
        }
      }
    }
  }

  /** ASCII lower-casing of one character. */
  function LowerChar(c: char): char {
    if 'A' <= c <= 'Z' then (c as int + 32) as char else c
  }

  /** ASCII lower-casing of a string (`toLowerCase` on ASCII input). */
  function Lower(s: string): (r: string)
    ensures |r| == |s|
    ensures forall i :: 0 <= i < |s| ==> r[i] == LowerChar(s[i])
  {
    seq(|s|, i requires 0 <= i < |s| => LowerChar(s[i]))
  }
}

=== FILE: images.dfy ===
/** Image-link validation of a manuscript (scripts/validate-images.js):
    extract the image URLs of a Markdown text, reject blacklisted hosts, and
    accept only URLs whose HEAD answer names an `image/` content type. */
module Images {
  import opened Common

  const BLACKLISTED_DOMAINS: seq<string> := ["spam.io", "malicious-host.com", "unsafe-cdn.net"]

  /** The HEAD request's timeout, in milliseconds. */
  const TIMEOUT_MS := 3000

  const HTTPS := "https://"
  const HTTP := "http://"

  // ---------------------------------------------------------------------
  // Extraction: the global regular expression `!\[.*?\]\((https?:\/\/[^\)]+)\)`

  /** The characters JavaScript's `.` does not match (no `s` flag). */
  predicate IsLineTerminator(c: char) {
    c == '\n' || c == '\r' || c == '\U{2028}' || c == '\U{2029}'
  }

  /** What the capture group can yield: a scheme, at least one more
      character, and no closing parenthesis. */
  predicate IsImageUrl(url: string) {
    && ')' !in url
    && ((StartsWith(url, HTTPS) && |url| > |HTTPS|) || (StartsWith(url, HTTP) && |url| > |HTTP|))
  }

  /** `[^\)]+` followed by `\)`, greedy: the length of the run before the
      first `)`, or the whole string when there is none. */
  function RunLength(s: string): (n: nat)
    ensures n <= |s|
    ensures forall k :: 0 <= k < n ==> s[k] != ')'
    ensures n < |s| ==> s[n] == ')'
  {
    if s == [] || s[0] == ')' then 0 else 1 + RunLength(s[1..])
  }

  /** `https?:\/\/`: the longer alternative first; when it fits but the rest
      fails, the shorter cannot fit either (its fifth character is `:`). */
  function Scheme(v: string): (r: Option<string>)
    ensures r.Some? ==> StartsWith(v, r.value) && (r.value == HTTPS || r.value == HTTP)
    ensures r.None? <==> !StartsWith(v, HTTPS) && !StartsWith(v, HTTP)
  {
    if StartsWith(v, HTTPS) then Some(HTTPS) else if StartsWith(v, HTTP) then Some(HTTP) else None
  }

  /** A captured URL and the number of characters the match consumed. */
  datatype Link = Link(url: string, length: nat)

  /** `\]\((https?:\/\/[^\)]+)\)` anchored at the start of `u`. */
  function LinkTarget(u: string): (r: Option<Link>)
    ensures r.Some? ==> IsImageUrl(r.value.url) && r.value.length == |r.value.url| + 3 <= |u|
    ensures r.Some? ==> u[..r.value.length] == "](" + r.value.url + ")"
  {
    if !StartsWith(u, "](") then None
    else match Scheme(u[2..])
      case None => None
      case Some(sc) =>
        var body := u[2 + |sc|..];
        var n := RunLength(body);
        if 1 <= n < |body| then
          var url := sc + body[..n];
          assert u[..|url| + 3] == "](" + url + ")" by {
            assert u[2..2 + |sc|] == sc;
            assert u[2 + |sc|..2 + |sc| + n] == body[..n];
          }
          Some(Link(url, |url| + 3))
        else None
  }

  /** `.*?` followed by the link: try the shortest label first, extending it
      one character at a time and never across a line terminator. */
  function LazyLabel(u: string): (r: Option<Link>)
    ensures r.Some? ==> IsImageUrl(r.value.url) && |r.value.url| + 3 <= r.value.length <= |u|
    decreases |u|
  {
    match LinkTarget(u)
    case Some(l) => Some(l)
    case None =>
      if u == [] || IsLineTerminator(u[0]) then None
      else match LazyLabel(u[1..])
        case None => None
        case Some(l) => Some(l.(length := l.length + 1))
  }

  /** A label match ends in `](`, the URL and `)`, and the label in front of
      it never crosses a line terminator. */
  lemma {:induction false} LazyLabelShape(u: string)
    ensures LazyLabel(u).Some? ==>
              && var l := LazyLabel(u).value;
              && var a := l.length - |l.url| - 3;
              && u[a..l.length] == "](" + l.url + ")"
              && forall k :: 0 <= k < a ==> !IsLineTerminator(u[k])
    decreases |u|
  {
    if LazyLabel(u).Some? && LinkTarget(u).None? {
      LazyLabelShape(u[1..]);
      var l := LazyLabel(u[1..]).value;
      assert LazyLabel(u) == Some(l.(length := l.length + 1));
      var a := l.length - |l.url| - 3;
      TailSlice(u, a, l.length);
      forall k | 1 <= k < a + 1
        ensures !IsLineTerminator(u[k])
      {
        assert u[k] == u[1..][k - 1];
      }
    }
  }

  lemma TailSlice(u: string, i: nat, j: nat)
    requires i <= j < |u|
    ensures u[1..][i..j] == u[i + 1..j + 1]
  {
  }

  /** One attempt of the expression at the start of `t`. */
  function MatchAt(t: string): (r: Option<Link>)
    ensures r.Some? ==> IsImageUrl(r.value.url) && |r.value.url| + 5 <= r.value.length <= |t|
    ensures !StartsWith(t, "![") ==> r.None?
  {
    if !StartsWith(t, "![") then None
    else match LazyLabel(t[2..])
      case None => None
      case Some(l) => Some(l.(length := l.length + 2))
  }

  /** The `exec` loop: a match resumes after its last character, a failed
      attempt moves one character on. */
  function ScanImages(t: string): (urls: seq<string>)
    ensures forall k :: 0 <= k < |urls| ==> IsImageUrl(urls[k])
    ensures |urls| <= |t|
    decreases |t|
  {
    if t == [] then []
    else match MatchAt(t)
      case Some(l) => [l.url] + ScanImages(t[l.length..])
      case None => ScanImages(t[1..])
  }

  /** `extractImageUrls`: the captured URLs, in document order. */
  function ExtractImageUrls(markdown: string): (urls: seq<string>)
    ensures forall k :: 0 <= k < |urls| ==> IsImageUrl(urls[k])
  {
    ScanImages(markdown)
  }

  /** A URL is only ever found where the text contains `![`. */
  lemma {:induction false} ImagesNeedMarker(t: string)
    ensures ScanImages(t) != [] ==> exists i :: OccursAt("![", t, i)
    decreases |t|
  {
    if t != [] {
      if MatchAt(t).Some? {
        assert OccursAt("![", t, 0);
      } else {
        ImagesNeedMarker(t[1..]);
        if ScanImages(t[1..]) != [] {
          var i :| OccursAt("![", t[1..], i);
          assert t[i + 1..i + 3] == t[1..][i..i + 2];
          assert OccursAt("![", t, i + 1);
        }
      }
    }
  }

  /** Text in which `![` never occurs yields no URLs. */
  lemma NoMarkerNoImages(markdown: string)
    requires !OccursIn("![", markdown)
    ensures ExtractImageUrls(markdown) == []
  {
    ImagesNeedMarker(markdown);
  }

  // ---------------------------------------------------------------------
  // The round trip: Markdown built from text and image links

  /** A piece of a document: plain text, or an image link `![alt](url)`. */
  datatype Piece = Prose(text: string) | Picture(alt: string, url: string)

  /** Pieces that the expression reads back as written: text without `!`,
      alt text without `]` or line breaks, and a well-formed URL. */
  predicate Renderable(p: Piece) {
    match p
    case Prose(text) => forall k :: 0 <= k < |text| ==> text[k] != '!'
    case Picture(alt, url) =>
      && (forall k :: 0 <= k < |alt| ==> alt[k] != ']' && !IsLineTerminator(alt[k]))
      && IsImageUrl(url)
  }

  function RenderPiece(p: Piece): string {
    match p
    case Prose(text) => text
    case Picture(alt, url) => "![" + alt + "](" + url + ")"
  }

  function Render(ps: seq<Piece>): string {
    if ps == [] then [] else RenderPiece(ps[0]) + Render(ps[1..])
  }

  function Urls(ps: seq<Piece>): seq<string> {
    if ps == [] then []
    else (if ps[0].Picture? then [ps[0].url] else []) + Urls(ps[1..])
  }

  lemma RunToParen(w: string, rest: string)
    requires ')' !in w
    ensures RunLength(w + ")" + rest) == |w|
  {
    var s := w + ")" + rest;
    assert s[|w|] == ')';
    assert forall k :: 0 <= k < |w| ==> s[k] == w[k];
  }

  /** The scheme read off a well-formed URL, whatever follows it, is the
      URL's own scheme, and something follows that scheme in the URL. */
  lemma SchemeReads(url: string, rest: string)
    requires IsImageUrl(url)
    ensures Scheme(url + rest) == Scheme(url)
    ensures Scheme(url).Some? && |url| > |Scheme(url).value|
  {
    var v := url + rest;
    if StartsWith(url, HTTPS) {
      assert v[..|HTTPS|] == url[..|HTTPS|];
      assert !StartsWith(url, HTTP) by {
        assert url[..|HTTP|][4] == url[..|HTTPS|][4];
      }
    } else {
      assert v[..|HTTP|] == url[..|HTTP|];
      assert url[4] == ':' by {
        assert url[..|HTTP|] == HTTP;
        assert url[..|HTTP|][4] == url[4];
      }
      assert !StartsWith(v, HTTPS) by {
        if |v| >= |HTTPS| {
          assert v[..|HTTPS|][4] == url[4];
        }
      }
    }
  }

  /** `LinkTarget` read off its parts: the `](` marker, the scheme, and
      the run up to the first `)`. */
  lemma LinkTargetParts(u: string, sc: string, n: nat)
    requires StartsWith(u, "](") && Scheme(u[2..]) == Some(sc)
    requires RunLength(u[2 + |sc|..]) == n && 1 <= n < |u| - 2 - |sc|
    ensures LinkTarget(u) == Some(Link(u[2..2 + |sc| + n], |sc| + n + 3))
  {
    assert sc + u[2 + |sc|..][..n] == u[2..2 + |sc| + n] by {
      assert u[2..][..|sc|] == sc;
    }
  }

  /** How `](url)rest` slices around the URL. */
  lemma FramedSlices(url: string, rest: string, k: nat)
    requires k <= |url|
    ensures var u := "](" + url + ")" + rest;
            && StartsWith(u, "](")
            && u[2..] == url + (")" + rest)
            && u[2 + k..] == url[k..] + ")" + rest
            && u[2..2 + |url|] == url
  {
    var u := "](" + url + ")" + rest;
    assert u[..2] == "](";
    assert u[2..] == url + (")" + rest);
  }

  lemma LinkTargetReads(url: string, rest: string)
    requires IsImageUrl(url)
    ensures LinkTarget("](" + url + ")" + rest) == Some(Link(url, |url| + 3))
  {
    var u := "](" + url + ")" + rest;
    SchemeReads(url, ")" + rest);
    var sc := Scheme(url).value;
    FramedSlices(url, rest, |sc|);
    RunToParen(url[|sc|..], rest);
    LinkTargetParts(u, sc, |url| - |sc|);
  }

  lemma {:induction false} LabelReads(alt: string, url: string, rest: string)
    requires forall k :: 0 <= k < |alt| ==> alt[k] != ']' && !IsLineTerminator(alt[k])
    requires IsImageUrl(url)
    ensures LazyLabel(alt + "](" + url + ")" + rest) == Some(Link(url, |alt| + |url| + 3))
    decreases |alt|
  {
    var u := alt + "](" + url + ")" + rest;
    if alt == [] {
      assert u == "](" + url + ")" + rest;
      LinkTargetReads(url, rest);
    } else {
      assert u[1..] == alt[1..] + "](" + url + ")" + rest;
      LabelReads(alt[1..], url, rest);
      LazyLabelSkips(u);
    }
  }

  /** A first character that is neither `]` nor a line terminator is part
      of the label: a match one character on is a match here, one longer. */
  lemma LazyLabelSkips(u: string)
    requires u != [] && u[0] != ']' && !IsLineTerminator(u[0])
    ensures LazyLabel(u[1..]).Some? ==>
              LazyLabel(u) == Some(LazyLabel(u[1..]).value.(length := LazyLabel(u[1..]).value.length + 1))
  {
    assert !StartsWith(u, "](");
  }

  lemma PictureReads(alt: string, url: string, rest: string)
    requires Renderable(Picture(alt, url))
    ensures ScanImages(RenderPiece(Picture(alt, url)) + rest) == [url] + ScanImages(rest)
  {
    var t := RenderPiece(Picture(alt, url)) + rest;
    var u := alt + "](" + url + ")" + rest;
    assert t == "![" + u;
    LabelReads(alt, url, rest);
    MarkedMatch(u);
    assert t[|alt| + |url| + 5..] == rest;
  }

  /** Text that starts with `![` matches here exactly as its label and link do. */
  lemma MarkedMatch(u: string)
    ensures MatchAt("![" + u) == (match LazyLabel(u) case None => None case Some(l) => Some(l.(length := l.length + 2)))
  {
    var t := "![" + u;
    assert t[..2] == "![";
    assert t[2..] == u;
  }

  lemma {:induction false} ProseSkipped(text: string, rest: string)
    requires forall k :: 0 <= k < |text| ==> text[k] != '!'
    ensures ScanImages(text + rest) == ScanImages(rest)
    decreases |text|
  {
    if text != [] {
      var t := text + rest;
      assert !StartsWith(t, "![") by {
        assert t[0] == text[0];
      }
      assert MatchAt(t) == None;
      assert t[1..] == text[1..] + rest;
      ProseSkipped(text[1..], rest);
    } else {
      assert text + rest == rest;
    }
  }

  /** Reading a rendered document yields exactly the URLs of its image
      links, in order. */
  lemma {:induction false} ExtractRendered(ps: seq<Piece>)
    requires forall k :: 0 <= k < |ps| ==> Renderable(ps[k])
    ensures ExtractImageUrls(Render(ps)) == Urls(ps)
    decreases |ps|
  {
    if ps != [] {
      ExtractRendered(ps[1..]);
      match ps[0]
      case Prose(text) => ProseSkipped(text, Render(ps[1..]));
      case Picture(alt, url) => PictureReads(alt, url, Render(ps[1..]));
    }
  }

  // ---------------------------------------------------------------------
  // Checking one URL

  /** `new URL(url).hostname` contains a blacklisted domain as a substring;
      a URL the parser rejects (`hostname` absent) is not blacklisted. */
  predicate IsBlacklisted(hostname: Option<string>) {
    hostname.Some? && exists k | 0 <= k < |BLACKLISTED_DOMAINS| :: Includes(hostname.value, BLACKLISTED_DOMAINS[k])
  }

  /** The blacklist is a plain substring test on the host name: any host
      that contains a listed domain anywhere is blocked, not only the domain
      and its subdomains. */
  lemma BlacklistIsSubstringMatch(hostname: Option<string>)
    ensures IsBlacklisted(hostname) <==>
            hostname.Some? && exists k :: 0 <= k < |BLACKLISTED_DOMAINS| && OccursIn(BLACKLISTED_DOMAINS[k], hostname.value)
  {
    if hostname.Some? {
      forall k | 0 <= k < |BLACKLISTED_DOMAINS|
        ensures Includes(hostname.value, BLACKLISTED_DOMAINS[k]) <==> OccursIn(BLACKLISTED_DOMAINS[k], hostname.value)
      {
        IncludesIsOccurrence(hostname.value, BLACKLISTED_DOMAINS[k]);
      }
    }
  }

  /** How the HEAD request ended: a response with status below 500 and its
      `content-type` header if any; the axios abort (`ECONNABORTED`, the
      timeout); or any other failure, a status of 500 or above included. */
  datatype HeadOutcome = Responded(status: int, contentType: Option<string>) | Aborted | Failed

  /** What the environment answers for one URL: the parsed host name (absent
      when the URL does not parse) and the HEAD outcome. */
  datatype Probe = Probe(hostname: Option<string>, head: HeadOutcome)

  /** Why a URL was rejected; a timed-out request carries the limit it hit. */
  datatype Reason = Blacklisted | WrongContentType(contentType: string) | TimedOut(afterMs: int) | RequestFailed

  /** The result object of `validateImageUrl`. */
  datatype Check = Accepted(url: string, contentType: string) | Rejected(url: string, reason: Reason)

  /** `validateImageUrl`: the blacklist is consulted before any request; a
      missing or empty content type reads as `''`. */
  function ValidateImageUrl(url: string, probe: Probe): (c: Check)
    ensures c.url == url
    ensures c.Accepted? <==> && !IsBlacklisted(probe.hostname)
                             && probe.head.Responded? && probe.head.status < 500
                             && StartsWith(probe.head.contentType.GetOr(""), "image/")
    ensures c.Accepted? ==> c.contentType == probe.head.contentType.value && StartsWith(c.contentType, "image/")
    ensures IsBlacklisted(probe.hostname) ==> c == Rejected(url, Blacklisted)
    ensures !IsBlacklisted(probe.hostname) && probe.head.Aborted? ==> c == Rejected(url, TimedOut(3000))
    ensures !IsBlacklisted(probe.hostname) && (probe.head.Failed? || (probe.head.Responded? && probe.head.status >= 500))
            ==> c == Rejected(url, RequestFailed)
  {
    if IsBlacklisted(probe.hostname) then Rejected(url, Blacklisted)
    else match probe.head
      case Aborted => Rejected(url, TimedOut(TIMEOUT_MS))
      case Failed => Rejected(url, RequestFailed)
      case Responded(status, ct) =>
        if status >= 500 then Rejected(url, RequestFailed)
        else
          var contentType := ct.GetOr("");
          if StartsWith(contentType, "image/") then Accepted(url, contentType)
          else Rejected(url, WrongContentType(contentType))
  }

  /** A client error does not reject: a 404 that names an image type is
      accepted, since only statuses from 500 up count as failures. */
  lemma ClientErrorWithImageTypeAccepted(url: string, hostname: string)
    requires !IsBlacklisted(Some(hostname))
    ensures ValidateImageUrl(url, Probe(Some(hostname), Responded(404, Some("image/png")))).Accepted?
  {
    assert StartsWith("image/png", "image/");
  }

  // ---------------------------------------------------------------------
  // The command

  /** The checks that failed, in order. */
  function Rejections(cs: seq<Check>): (bad: seq<Check>)
    ensures forall c :: c in bad <==> c in cs && c.Rejected?
    ensures |bad| <= |cs|
    ensures bad == [] <==> forall k :: 0 <= k < |cs| ==> cs[k].Accepted?
  {
    if cs == [] then []
    else (if cs[0].Rejected? then [cs[0]] else []) + Rejections(cs[1..])
  }

  /** The outcome of one run: exit status, every check made, and the checks
      reported as invalid. */
  datatype ImagesRun = ImagesRun(exitCode: int, checked: seq<Check>, reported: seq<Check>)

  /** `main`: `content` is the file's text, absent when it cannot be read;
      `host` is what the URL parser makes of a URL, and `heads(k)` is the HEAD
      outcome of the `k`-th extracted link. It is consulted only when the
      link's host is not blacklisted, since no request is sent for a
      blacklisted host; two links with the same URL may be answered
      differently. Results are in link order. An empty path stands for a
      missing argument. */
  function ValidateImagesCommand(filePath: string, content: Option<string>,
                                 host: string -> Option<string>, heads: nat -> HeadOutcome): (run: ImagesRun)
    ensures run.exitCode == 0 || run.exitCode == 1
    ensures filePath == "" || content.None? ==> run == ImagesRun(1, [], [])
    ensures filePath != "" && content.Some? ==>
              && var urls := ExtractImageUrls(content.value);
              && |run.checked| == |urls|
              && (forall k :: 0 <= k < |urls| ==> run.checked[k] == ValidateImageUrl(urls[k], Probe(host(urls[k]), heads(k))))
              && (run.exitCode == 0 <==> forall k :: 0 <= k < |urls| ==> run.checked[k].Accepted?)
              && (forall c :: c in run.reported <==> c in run.checked && c.Rejected?)
    ensures filePath != "" && content.Some? && ExtractImageUrls(content.value) == [] ==> run.exitCode == 0
  {
    if filePath == "" || content.None? then ImagesRun(1, [], [])
    else
      var urls := ExtractImageUrls(content.value);
      var checks := seq(|urls|, k requires 0 <= k < |urls| => ValidateImageUrl(urls[k], Probe(host(urls[k]), heads(k))));
      var bad := Rejections(checks);
      ImagesRun(if bad == [] then 0 else 1, checks, bad)
  }

  /** A document whose first image link points at a blacklisted host fails,
      whatever the network would have answered. */
  lemma BlacklistedImageFails(filePath: string, content: string, host: string -> Option<string>, heads: nat -> HeadOutcome)
    requires filePath != ""
    requires ExtractImageUrls(content) != []
    requires IsBlacklisted(host(ExtractImageUrls(content)[0]))
    ensures ValidateImagesCommand(filePath, Some(content), host, heads).exitCode == 1
  {
    var urls := ExtractImageUrls(content);
    assert ValidateImagesCommand(filePath, Some(content), host, heads).checked[0] == Rejected(urls[0], Blacklisted);
  }

  /** The same URL written twice is requested twice: when the first request
      times out and the second answers with an image type, the first link is
      rejected and the second accepted. */
  lemma RepeatedUrlCheckedPerLink(filePath: string, content: string, host: string -> Option<string>, heads: nat -> HeadOutcome)
    requires filePath != ""
    requires |ExtractImageUrls(content)| >= 2 && ExtractImageUrls(content)[0] == ExtractImageUrls(content)[1]
    requires !IsBlacklisted(host(ExtractImageUrls(content)[0]))
    requires heads(0) == Aborted && heads(1) == Responded(200, Some("image/png"))
    ensures var run := ValidateImagesCommand(filePath, Some(content), host, heads);
            && run.checked[0] == Rejected(ExtractImageUrls(content)[0], TimedOut(TIMEOUT_MS))
            && run.checked[1] == Accepted(ExtractImageUrls(content)[1], "image/png")
            && run.exitCode == 1
  {
    assert StartsWith("image/png", "image/");
  }
}

=== FILE: lifecycle.dfy ===
/** The review-slot lifecycle across scripts: any interleaving of claims
    (scripts/claim-review-slot.js) and timeout sweeps
    (scripts/check-review-timeouts.js) applied to one record. */
module Lifecycle {
  import opened Common
  import opened Records
  import opened Lookup
  import opened Claim
  import opened Timeouts

  /** One script run against the record: a claim by `user` at `at`, or a
      sweep at `at` with the given timeout. */
  datatype Op = ClaimBy(user: string, at: int) | SweepAt(at: int, timeoutMs: int)

  /** The record after one run; a refused claim leaves it as it was. */
  function Apply(s: Submission, op: Op): Submission {
    match op
    case ClaimBy(user, at) =>
      (match ClaimRecord(s, user, at)
       case Ok(s') => s'
       case Err(_) => s)
    case SweepAt(at, timeoutMs) => Sweep(s, at, timeoutMs).record
  }

  function Replay(s: Submission, ops: seq<Op>): Submission
    decreases |ops|
  {
    if ops == [] then s else Apply(Replay(s, ops[..|ops| - 1]), ops[|ops| - 1])
  }

  /** The review-slot invariant survives every sequence of claims and sweeps:
      the counter always equals the number of reviewers holding a slot, never
      exceeds the capacity, and no user is listed twice. */
  lemma {:induction false} ReplayPreservesWellFormed(s: Submission, ops: seq<Op>)
    requires WellFormed(s)
    ensures WellFormed(Replay(s, ops))
    decreases |ops|
  {
    if ops != [] {
      var before := Replay(s, ops[..|ops| - 1]);
      ReplayPreservesWellFormed(s, ops[..|ops| - 1]);
      match ops[|ops| - 1]
      case ClaimBy(user, at) =>
        if ClaimRecord(before, user, at).Ok? {
          ClaimPreservesWellFormed(before, user, at);
        }
      case SweepAt(at, timeoutMs) =>
        SweepPreservesWellFormed(before, at, timeoutMs);
    }
  }

  /** A timed-out slot on an active record is given back: after the sweep a
      user not yet listed can claim even when the record was full, and the
      list then holds one more entry than before. When the record was full
      this puts more reviewers on the list than there are slots, while the
      counter stays within the capacity. */
  lemma ReleasedSlotReopens(s: Submission, now: int, timeoutMs: int, k: nat, newcomer: string, later: int)
    requires WellFormed(s) && IsActiveStatus(s.status)
    requires k < |s.slots.reviewers| && TimedOut(s.slots.reviewers[k], now, timeoutMs)
    requires !HasReviewer(s.slots.reviewers, newcomer)
    ensures var swept := Sweep(s, now, timeoutMs).record;
            && ClaimRecord(swept, newcomer, later).Ok?
            && |ClaimRecord(swept, newcomer, later).value.slots.reviewers| == |s.slots.reviewers| + 1
            && ClaimRecord(swept, newcomer, later).value.slots.total == s.slots.total
            && (s.slots.filled == s.slots.total ==>
                  |ClaimRecord(swept, newcomer, later).value.slots.reviewers| > ClaimRecord(swept, newcomer, later).value.slots.total)
            && WellFormed(ClaimRecord(swept, newcomer, later).value)
  {
    var o := Sweep(s, now, timeoutMs);
    var stale := Stale(s.slots.reviewers, now, timeoutMs);
    NoStaleIff(s.slots.reviewers, now, timeoutMs);
    assert stale != [];
    MappedLengths(s, stale, now);
    SweepAccounting(s, now, timeoutMs);
    SweepReviewers(s, now, timeoutMs);
    assert |o.released| >= 1;
    OccupiedAtMostLength(s.slots.reviewers);
    SweepPreservesWellFormed(s, now, timeoutMs);
    ClaimPreservesWellFormed(o.record, newcomer, later);
  }

  /** A reviewer whose slot was released stays on the list, so the same user
      can never claim that submission again. */
  lemma ExpiredReviewerCannotReclaim(s: Submission, now: int, timeoutMs: int, k: nat, later: int)
    requires IsActiveStatus(s.status)
    requires k < |s.slots.reviewers| && TimedOut(s.slots.reviewers[k], now, timeoutMs)
    ensures var swept := Sweep(s, now, timeoutMs).record;
            && swept.slots.reviewers[k].status == EXPIRED
            && ClaimRecord(swept, s.slots.reviewers[k].userId, later).Err?
  {
    SweepReviewers(s, now, timeoutMs);
    var swept := Sweep(s, now, timeoutMs).record;
    assert swept.slots.reviewers[k].userId == s.slots.reviewers[k].userId;
  }

  /** A fresh claim survives a sweep run at the same instant with any
      non-negative timeout. */
  lemma FreshClaimSurvivesSweep(s: Submission, user: string, now: int, timeoutMs: int)
    requires timeoutMs >= 0
    requires ClaimRecord(s, user, now).Ok?
    ensures var c := ClaimRecord(s, user, now).value;
            Sweep(c, now, timeoutMs).record.slots.reviewers[|s.slots.reviewers|] == Reviewer(user, now, CLAIMED, None)
  {
    var c := ClaimRecord(s, user, now).value;
    SweepReviewers(c, now, timeoutMs);
  }

  /** Claiming through the store keeps every record of the store well formed. */
  lemma ClaimSlotPreservesWellFormed(store: Store, id: string, user: string, now: int)
    requires forall i :: 0 <= i < |store| && store[i].doc.Valid? ==> WellFormed(store[i].doc.value)
    requires ClaimSlot(store, id, user, now).Ok?
    ensures var out := ClaimSlot(store, id, user, now).value;
            forall i :: 0 <= i < |out| && out[i].doc.Valid? ==> WellFormed(out[i].doc.value)
  {
    var out := ClaimSlot(store, id, user, now).value;
    var f := FindSubmission(store, id).index;
    ClaimPreservesWellFormed(store[f].doc.value, user, now);
  }
}

=== FILE: lookup.dfy ===
/** The metadata store as the scripts see it: the files under
    `metadata/submissions/`, in the order the directory walk visits them, and
    the first-match scan every script performs over them. */
module Lookup {
  import opened Common
  import opened Records

  /** One file under `metadata/submissions/<partition>/`. */
  datatype StoreEntry = StoreEntry(partition: string, fileName: string, doc: Doc<Submission>)

  /** All submission files in scan order (year-month directory, then file). */
  type Store = seq<StoreEntry>

  /** The walk only opens files named `sub_*.json`; the rest are never read. */
  predicate IsSubmissionFileName(name: string) {
    StartsWith(name, "sub_") && EndsWith(name, ".json")
  }

  /** What a scan is looking for. */
  datatype Query =
    | ById(id: string)               // the claim script: any status
    | ActiveById(id: string)         // the active-submission check

  predicate Matches(q: Query, s: Submission) {
    match q
    case ById(id) => s.id == id
    case ActiveById(id) => s.id == id && IsActiveStatus(s.status)
  }

  /** The scan stops here with a result. */
  predicate Hit(e: StoreEntry, q: Query) {
    IsSubmissionFileName(e.fileName) && e.doc.Valid? && Matches(q, e.doc.value)
  }

  /** The scan stops here because `JSON.parse` throws. */
  predicate Unreadable(e: StoreEntry) {
    IsSubmissionFileName(e.fileName) && e.doc.Corrupt?
  }

  /** The scan walks over entries `lo .. hi-1` without stopping. */
  ghost predicate PassesOver(store: Store, q: Query, lo: int, hi: int)
    requires 0 <= lo <= hi <= |store|
  {
    forall j :: lo <= j < hi ==> !Hit(store[j], q) && !Unreadable(store[j])
  }

  /** Outcome of a scan: the index of the first hit, no hit at all, or the
      index of the first unreadable file, which aborts the scan. */
  datatype Scan = Found(index: nat) | Missing | ParseError(index: nat)

  /** The scan of entries `from ..`, stopping at the first hit or unreadable file. */
  function FindFrom(store: Store, q: Query, from: nat): (r: Scan)
    requires from <= |store|
    ensures match r
      case Found(i) => from <= i < |store| && Hit(store[i], q) && PassesOver(store, q, from, i)
      case ParseError(i) => from <= i < |store| && Unreadable(store[i]) && PassesOver(store, q, from, i)
      case Missing => PassesOver(store, q, from, |store|)
    decreases |store| - from
  {
    if from == |store| then Missing
    else if Unreadable(store[from]) then ParseError(from)
    else if Hit(store[from], q) then Found(from)
    else FindFrom(store, q, from + 1)
  }

  /** `findSubmission`: the first readable `sub_*.json` record with this id. */
  function FindSubmission(store: Store, id: string): (r: Scan)
    ensures r.Found? ==> r.index < |store| && store[r.index].doc.Valid? && store[r.index].doc.value.id == id
    ensures r.Missing? ==> forall j :: 0 <= j < |store| && IsSubmissionFileName(store[j].fileName) ==>
              store[j].doc.Valid? && store[j].doc.value.id != id
  {
    FindFrom(store, ById(id), 0)
  }

  /** `getAllSubmissions`: the indices of every `sub_*.json` file in scan
      order, or the index of the first one whose JSON does not parse. */
  function ListFrom(store: Store, from: nat): (r: Result<seq<nat>, nat>)
    requires from <= |store|
    ensures r.Ok? ==> forall k :: k in r.value <==> from <= k < |store| && IsSubmissionFileName(store[k].fileName)
    ensures r.Ok? ==> forall k :: from <= k < |store| && IsSubmissionFileName(store[k].fileName) ==> store[k].doc.Valid?
    ensures r.Ok? ==> forall a, b :: 0 <= a < b < |r.value| ==> r.value[a] < r.value[b]
    ensures r.Ok? ==> forall a :: 0 <= a < |r.value| ==> from <= r.value[a]
    ensures r.Err? ==> from <= r.error < |store| && Unreadable(store[r.error])
    ensures r.Err? ==> forall k :: from <= k < r.error ==> !Unreadable(store[k])
    decreases |store| - from
  {
    if from == |store| then Ok([])
    else if !IsSubmissionFileName(store[from].fileName) then ListFrom(store, from + 1)
    else if store[from].doc.Corrupt? then Err(from)
    else match ListFrom(store, from + 1)
      case Err(k) => Err(k)
      case Ok(rest) => Ok([from] + rest)
  }

  function ListSubmissions(store: Store): Result<seq<nat>, nat> {
    ListFrom(store, 0)
  }
}

=== FILE: records.dfy ===
/** The submission record kept in `metadata/submissions/<YYYY>-<MM>/<id>.json`
    and its embedded review-slot aggregate. Timestamps are integer
    milliseconds; the scripts' ISO-8601 strings are not modelled. */
module Records {
  import opened Common

  // Reviewer statuses the scripts compare against.
  const CLAIMED := "claimed"
  const SUBMITTED := "submitted"
  const EXPIRED := "expired"

  // Submission statuses that count as "in the review pipeline".
  const UNDER_REVIEW := "under-review"
  const PENDING_REVISION := "pending-revision"

  /** One entry of `reviewSlots.reviewers`. `expiredAt` is present only once
      the timeout sweep has released the slot. */
  datatype Reviewer = Reviewer(userId: string, claimedAt: int, status: string, expiredAt: Option<int>)

  /** One entry of the append-only `reviewSlots.history` log. */
  datatype HistoryEntry = HistoryEntry(userId: string, action: string, timestamp: int)

  /** The `details` object of a timeline event. */
  datatype EventDetails =
    | SlotClaimed(slotNumber: int)
    | SlotTimedOut(reviewer: string, claimedAt: int, daysElapsed: int)

  /** One entry of the append-only `timelines` log. */
  datatype TimelineEntry = TimelineEntry(event: string, timestamp: int, actor: string, details: EventDetails)

  /** `reviewSlots`: capacity, the fill counter, the ordered reviewer list and
      the audit log, which may be absent from a freshly created record. */
  datatype ReviewSlots = ReviewSlots(
    total: int,
    filled: int,
    reviewers: seq<Reviewer>,
    history: Option<seq<HistoryEntry>>)

  datatype Submission = Submission(
    id: string,
    title: string,
    authorId: string,
    status: string,
    prNumber: int,
    branchName: string,
    slots: ReviewSlots,
    timelines: Option<seq<TimelineEntry>>,
    updatedAt: int)

  /** The entries of a log that may be absent; absent reads as empty. */
  function Entries<T>(log: Option<seq<T>>): seq<T> {
    log.GetOr([])
  }

  /** `status` is one of the two statuses of a submission still under review. */
  predicate IsActiveStatus(status: string) {
    status == UNDER_REVIEW || status == PENDING_REVISION
  }

  /** A reviewer occupies a slot unless the slot was released by a timeout;
      a `submitted` review keeps its slot. */
  predicate HoldsSlot(r: Reviewer) {
    r.status != EXPIRED
  }

  /** The number of reviewers that occupy a slot. */
  function Occupied(rs: seq<Reviewer>): nat
    decreases |rs|
  {
    if rs == [] then 0
    else Occupied(rs[..|rs| - 1]) + (if HoldsSlot(rs[|rs| - 1]) then 1 else 0)
  }

  /** The fill counter agrees with the reviewer list. */
  predicate SlotsConsistent(slots: ReviewSlots) {
    slots.filled == Occupied(slots.reviewers)
  }

  /** No user appears twice in the reviewer list, whatever the statuses. */
  predicate DistinctReviewers(rs: seq<Reviewer>) {
    forall i, j :: 0 <= i < j < |rs| ==> rs[i].userId != rs[j].userId
  }

  /** The review-slot invariant kept by claim and by the timeout sweep. */
  predicate WellFormed(s: Submission) {
    && SlotsConsistent(s.slots)
    && s.slots.filled <= s.slots.total
    && DistinctReviewers(s.slots.reviewers)
  }

  /** At most every reviewer occupies a slot. */
  lemma {:induction false} OccupiedAtMostLength(rs: seq<Reviewer>)
    ensures Occupied(rs) <= |rs|
    decreases |rs|
  {
    if rs != [] {
      OccupiedAtMostLength(rs[..|rs| - 1]);
    }
  }

  /** Appending one reviewer adds one occupied slot exactly when it holds one. */
  lemma OccupiedSnoc(rs: seq<Reviewer>, r: Reviewer)
    ensures Occupied(rs + [r]) == Occupied(rs) + (if HoldsSlot(r) then 1 else 0)
  {
    assert (rs + [r])[..|rs|] == rs;
  }
}

=== FILE: timeouts.dfy ===
/** Releasing review slots whose claim is older than the timeout
    (`checkAndReleaseTimeouts` in scripts/check-review-timeouts.js). */
module Timeouts {
  import opened Common
  import opened Records
  import opened Lookup

  const DAY_MS: int := 24 * 60 * 60 * 1000
  const DEFAULT_TIMEOUT_DAYS: int := 14

  const TIMEOUT_ACTION := "timeout_release"
  const SLOT_TIMEOUT_EVENT := "review_slot_timeout"
  const SYSTEM_ACTOR := "system"

  /** `timeoutDays * 24 * 60 * 60 * 1000` */
  function TimeoutMs(days: int): int {
    days * DAY_MS
  }

  /** A reviewer whose slot the sweep may release: anything but `submitted`
      and `expired`, including statuses the scripts never write. */
  predicate AwaitingReview(r: Reviewer) {
    r.status != SUBMITTED && r.status != EXPIRED
  }

  /** Strictly more than the timeout has elapsed since the claim. */
  predicate TimedOut(r: Reviewer, now: int, timeoutMs: int) {
    AwaitingReview(r) && now - r.claimedAt > timeoutMs
  }

  /** `Math.floor(elapsed / DAY_MS)`: Dafny's division by a positive divisor
      already rounds towards negative infinity. */
  function DaysElapsed(r: Reviewer, now: int): (d: int)
    ensures d * DAY_MS <= now - r.claimedAt < (d + 1) * DAY_MS
  {
    (now - r.claimedAt) / DAY_MS
  }

  function Expire(r: Reviewer, now: int): Reviewer {
    r.(status := EXPIRED, expiredAt := Some(now))
  }

  /** One reviewer after the sweep looked at it. */
  function Refresh(r: Reviewer, now: int, timeoutMs: int): Reviewer {
    if TimedOut(r, now, timeoutMs) then Expire(r, now) else r
  }

  function RefreshAll(rs: seq<Reviewer>, now: int, timeoutMs: int): seq<Reviewer> {
    seq(|rs|, i requires 0 <= i < |rs| => Refresh(rs[i], now, timeoutMs))
  }

  /** The reviewers the sweep releases, in list order. */
  function Stale(rs: seq<Reviewer>, now: int, timeoutMs: int): seq<Reviewer>
    decreases |rs|
  {
    if rs == [] then []
    else Stale(rs[..|rs| - 1], now, timeoutMs)
         + (if TimedOut(rs[|rs| - 1], now, timeoutMs) then [rs[|rs| - 1]] else [])
  }

  function TimeoutEntry(r: Reviewer, now: int): HistoryEntry {
    HistoryEntry(r.userId, TIMEOUT_ACTION, now)
  }

  function TimeoutEvent(r: Reviewer, now: int): TimelineEntry {
    TimelineEntry(SLOT_TIMEOUT_EVENT, now, SYSTEM_ACTOR, SlotTimedOut(r.userId, r.claimedAt, DaysElapsed(r, now)))
  }

  /** One element of `releasedSlots`. */
  datatype ReleasedSlot = ReleasedSlot(submission: string, reviewer: string, prNumber: int)

  function TimeoutEntries(stale: seq<Reviewer>, now: int): seq<HistoryEntry>
    decreases |stale|
  {
    if stale == [] then []
    else TimeoutEntries(stale[..|stale| - 1], now) + [TimeoutEntry(stale[|stale| - 1], now)]
  }

  function TimeoutEvents(stale: seq<Reviewer>, now: int): seq<TimelineEntry>
    decreases |stale|
  {
    if stale == [] then []
    else TimeoutEvents(stale[..|stale| - 1], now) + [TimeoutEvent(stale[|stale| - 1], now)]
  }

  function ReleasedOf(s: Submission, stale: seq<Reviewer>): seq<ReleasedSlot>
    decreases |stale|
  {
    if stale == [] then []
    else ReleasedOf(s, stale[..|stale| - 1]) + [ReleasedSlot(s.title, stale[|stale| - 1].userId, s.prNumber)]
  }

  /** The record after one sweep, and the slots it released. */
  datatype SweepOutcome = SweepOutcome(record: Submission, released: seq<ReleasedSlot>)

  /** The sweep of one record, as a reference definition: inactive records
      and records with nothing stale come back as they were. */
  function Sweep(s: Submission, now: int, timeoutMs: int): SweepOutcome {
    var stale := Stale(s.slots.reviewers, now, timeoutMs);
    if !IsActiveStatus(s.status) || stale == [] then SweepOutcome(s, [])
    else
      SweepOutcome(
        s.(slots := s.slots.(
             reviewers := RefreshAll(s.slots.reviewers, now, timeoutMs),
             filled := s.slots.filled - |stale|,
             history := Some(Entries(s.slots.history) + TimeoutEntries(stale, now))),
           timelines := Some(Entries(s.timelines) + TimeoutEvents(stale, now)),
           updatedAt := now),
        ReleasedOf(s, stale))
  }

  // ---------------------------------------------------------------------
  // Facts about the pieces

  lemma StaleSnoc(rs: seq<Reviewer>, r: Reviewer, now: int, timeoutMs: int)
    ensures Stale(rs + [r], now, timeoutMs) == Stale(rs, now, timeoutMs) + (if TimedOut(r, now, timeoutMs) then [r] else [])
  {
    assert (rs + [r])[..|rs|] == rs;
  }

  lemma {:induction false} StaleAreTimedOut(rs: seq<Reviewer>, now: int, timeoutMs: int)
    ensures forall k :: 0 <= k < |Stale(rs, now, timeoutMs)| ==> TimedOut(Stale(rs, now, timeoutMs)[k], now, timeoutMs)
    decreases |rs|
  {
    if rs != [] {
      StaleAreTimedOut(rs[..|rs| - 1], now, timeoutMs);
    }
  }

  /** Nothing is stale exactly when no reviewer has timed out. */
  lemma {:induction false} NoStaleIff(rs: seq<Reviewer>, now: int, timeoutMs: int)
    ensures Stale(rs, now, timeoutMs) == [] <==> forall k :: 0 <= k < |rs| ==> !TimedOut(rs[k], now, timeoutMs)
    decreases |rs|
  {
    if rs != [] {
      var init := rs[..|rs| - 1];
      NoStaleIff(init, now, timeoutMs);
      assert forall k :: 0 <= k < |init| ==> init[k] == rs[k];
    }
  }

  lemma {:induction false} MappedLengths(s: Submission, stale: seq<Reviewer>, now: int)
    ensures |TimeoutEntries(stale, now)| == |stale|
    ensures |TimeoutEvents(stale, now)| == |stale|
    ensures |ReleasedOf(s, stale)| == |stale|
    decreases |stale|
  {
    if stale != [] {
      MappedLengths(s, stale[..|stale| - 1], now);
    }
  }

  lemma {:induction false} TimeoutEntriesShape(stale: seq<Reviewer>, now: int)
    ensures |TimeoutEntries(stale, now)| == |stale|
    ensures forall k :: 0 <= k < |stale| ==> TimeoutEntries(stale, now)[k] == TimeoutEntry(stale[k], now)
    decreases |stale|
  {
    if stale != [] {
      var init := stale[..|stale| - 1];
      TimeoutEntriesShape(init, now);
      assert forall k :: 0 <= k < |init| ==> init[k] == stale[k];
    }
  }

  lemma {:induction false} TimeoutEventsShape(s: Submission, stale: seq<Reviewer>, now: int)
    ensures |TimeoutEvents(stale, now)| == |ReleasedOf(s, stale)| == |stale|
    ensures forall k :: 0 <= k < |stale| ==> TimeoutEvents(stale, now)[k] == TimeoutEvent(stale[k], now)
    ensures forall k :: 0 <= k < |stale| ==> ReleasedOf(s, stale)[k] == ReleasedSlot(s.title, stale[k].userId, s.prNumber)
    decreases |stale|
  {
    if stale != [] {
      var init := stale[..|stale| - 1];
      TimeoutEventsShape(s, init, now);
      assert forall k :: 0 <= k < |init| ==> init[k] == stale[k];
    }
  }

  lemma RefreshAllPrefix(rs: seq<Reviewer>, now: int, timeoutMs: int)
    requires rs != []
    ensures RefreshAll(rs, now, timeoutMs)
            == RefreshAll(rs[..|rs| - 1], now, timeoutMs) + [Refresh(rs[|rs| - 1], now, timeoutMs)]
  {
  }

  lemma StalePrefixStep(rs: seq<Reviewer>, i: nat, now: int, timeoutMs: int)
    requires i < |rs|
    ensures Stale(rs[..i + 1], now, timeoutMs)
            == Stale(rs[..i], now, timeoutMs) + (if TimedOut(rs[i], now, timeoutMs) then [rs[i]] else [])
  {
    assert rs[..i + 1] == rs[..i] + [rs[i]];
    StaleSnoc(rs[..i], rs[i], now, timeoutMs);
  }

  lemma MappedSnoc(s: Submission, stale: seq<Reviewer>, r: Reviewer, now: int)
    ensures TimeoutEntries(stale + [r], now) == TimeoutEntries(stale, now) + [TimeoutEntry(r, now)]
    ensures TimeoutEvents(stale + [r], now) == TimeoutEvents(stale, now) + [TimeoutEvent(r, now)]
    ensures ReleasedOf(s, stale + [r]) == ReleasedOf(s, stale) + [ReleasedSlot(s.title, r.userId, s.prNumber)]
  {
    assert (stale + [r])[..|stale|] == stale;
  }

  /** Each released reviewer gives up exactly one occupied slot. */
  lemma {:induction false} OccupiedAfterRefresh(rs: seq<Reviewer>, now: int, timeoutMs: int)
    ensures Occupied(RefreshAll(rs, now, timeoutMs)) == Occupied(rs) - |Stale(rs, now, timeoutMs)|
    decreases |rs|
  {
    if rs != [] {
      var init := rs[..|rs| - 1];
      var last := rs[|rs| - 1];
      OccupiedAfterRefresh(init, now, timeoutMs);
      RefreshAllPrefix(rs, now, timeoutMs);
      OccupiedSnoc(RefreshAll(init, now, timeoutMs), Refresh(last, now, timeoutMs));
      assert rs == init + [last];
      OccupiedSnoc(init, last);
    }
  }

  // ---------------------------------------------------------------------
  // What one sweep does to one record

  /** Per reviewer: the list keeps its length and order, and each entry keeps
      its user and claim time; a reviewer is expired at `now` exactly when
      the submission is active and the reviewer has timed out, and is left
      untouched otherwise. */
  lemma SweepReviewers(s: Submission, now: int, timeoutMs: int)
    ensures var rs' := Sweep(s, now, timeoutMs).record.slots.reviewers;
            var rs := s.slots.reviewers;
            && |rs'| == |rs|
            && (forall k :: 0 <= k < |rs| ==> rs'[k].userId == rs[k].userId && rs'[k].claimedAt == rs[k].claimedAt)
            && (forall k :: 0 <= k < |rs| && IsActiveStatus(s.status) && TimedOut(rs[k], now, timeoutMs) ==>
                  rs'[k].status == EXPIRED && rs'[k].expiredAt == Some(now))
            && (forall k :: 0 <= k < |rs| && !(IsActiveStatus(s.status) && TimedOut(rs[k], now, timeoutMs)) ==>
                  rs'[k] == rs[k])
  {
    NoStaleIff(s.slots.reviewers, now, timeoutMs);
  }

  /** A reviewer awaiting review in an active submission is expired iff the
      elapsed time is strictly greater than the timeout: a claim exactly at
      the boundary survives, one a millisecond older does not. */
  lemma StrictBoundary(s: Submission, now: int, timeoutMs: int, k: nat)
    requires IsActiveStatus(s.status)
    requires k < |s.slots.reviewers| && AwaitingReview(s.slots.reviewers[k])
    ensures Sweep(s, now, timeoutMs).record.slots.reviewers[k].status == EXPIRED
            <==> now - s.slots.reviewers[k].claimedAt > timeoutMs
  {
    SweepReviewers(s, now, timeoutMs);
  }

  /** The counter drops by the number of released slots, every release
      appends one `timeout_release` history entry and one timeline event, the
      capacity stays, and the record is stamped exactly when something was
      released. */
  lemma SweepAccounting(s: Submission, now: int, timeoutMs: int)
    ensures var o := Sweep(s, now, timeoutMs);
            && o.record.slots.filled == s.slots.filled - |o.released|
            && o.record.slots.total == s.slots.total
            && |Entries(o.record.slots.history)| == |Entries(s.slots.history)| + |o.released|
            && Entries(o.record.slots.history)[..|Entries(s.slots.history)|] == Entries(s.slots.history)
            && (forall k :: |Entries(s.slots.history)| <= k < |Entries(o.record.slots.history)| ==>
                  Entries(o.record.slots.history)[k].action == TIMEOUT_ACTION
                  && Entries(o.record.slots.history)[k].timestamp == now)
            && |Entries(o.record.timelines)| == |Entries(s.timelines)| + |o.released|
            && Entries(o.record.timelines)[..|Entries(s.timelines)|] == Entries(s.timelines)
            && (o.released == [] <==> o.record == s)
            && (o.released != [] ==> o.record.updatedAt == now)
            && (!IsActiveStatus(s.status) ==> o == SweepOutcome(s, []))
  {
    var o := Sweep(s, now, timeoutMs);
    var stale := Stale(s.slots.reviewers, now, timeoutMs);
    MappedLengths(s, stale, now);
    TimeoutEntriesShape(stale, now);
    if IsActiveStatus(s.status) && stale != [] {
      var h := Entries(s.slots.history);
      assert Entries(o.record.slots.history) == h + TimeoutEntries(stale, now);
      forall k | |h| <= k < |Entries(o.record.slots.history)|
        ensures Entries(o.record.slots.history)[k].action == TIMEOUT_ACTION
        ensures Entries(o.record.slots.history)[k].timestamp == now
      {
        assert Entries(o.record.slots.history)[k] == TimeoutEntries(stale, now)[k - |h|];
      }
      assert o.record.slots.history.Some?;
    }
  }

  /** On an active record, the released reviewers are the timed-out ones in
      list order, and release number `j` appends, after the existing entries,
      the `timeout_release` history entry of that reviewer, the
      `review_slot_timeout` event by `system` carrying the reviewer, the
      claim time and the whole days elapsed, and the released-slot report. */
  lemma SweepLogs(s: Submission, now: int, timeoutMs: int)
    requires IsActiveStatus(s.status)
    ensures var o := Sweep(s, now, timeoutMs);
            var stale := Stale(s.slots.reviewers, now, timeoutMs);
            var h := Entries(s.slots.history);
            var tl := Entries(s.timelines);
            && |o.released| == |stale|
            && |Entries(o.record.slots.history)| == |h| + |stale|
            && |Entries(o.record.timelines)| == |tl| + |stale|
            && (forall j :: 0 <= j < |stale| ==> TimedOut(stale[j], now, timeoutMs))
            && (forall j :: 0 <= j < |stale| ==>
                  Entries(o.record.slots.history)[|h| + j] == HistoryEntry(stale[j].userId, TIMEOUT_ACTION, now))
            && (forall j :: 0 <= j < |stale| ==>
                  && Entries(o.record.timelines)[|tl| + j].event == SLOT_TIMEOUT_EVENT
                  && Entries(o.record.timelines)[|tl| + j].actor == SYSTEM_ACTOR
                  && Entries(o.record.timelines)[|tl| + j].timestamp == now
                  && Entries(o.record.timelines)[|tl| + j].details.SlotTimedOut?
                  && Entries(o.record.timelines)[|tl| + j].details.reviewer == stale[j].userId
                  && Entries(o.record.timelines)[|tl| + j].details.claimedAt == stale[j].claimedAt
                  && Entries(o.record.timelines)[|tl| + j].details.daysElapsed * DAY_MS
                     <= now - stale[j].claimedAt
                     < (Entries(o.record.timelines)[|tl| + j].details.daysElapsed + 1) * DAY_MS)
            && (forall j :: 0 <= j < |stale| ==> o.released[j] == ReleasedSlot(s.title, stale[j].userId, s.prNumber))
  {
    var stale := Stale(s.slots.reviewers, now, timeoutMs);
    StaleAreTimedOut(s.slots.reviewers, now, timeoutMs);
    TimeoutEntriesShape(stale, now);
    TimeoutEventsShape(s, stale, now);
    if stale != [] {
      var o := Sweep(s, now, timeoutMs);
      var h := Entries(s.slots.history);
      var tl := Entries(s.timelines);
      assert Entries(o.record.slots.history) == h + TimeoutEntries(stale, now);
      assert Entries(o.record.timelines) == tl + TimeoutEvents(stale, now);
      forall j | 0 <= j < |stale|
        ensures Entries(o.record.timelines)[|tl| + j] == TimeoutEvent(stale[j], now)
      {
      }
    }
  }

  /** The sweep keeps the review-slot invariant: the counter still counts the
      reviewers holding a slot (and so never goes negative), it stays within
      capacity, and the reviewer list keeps its users. */
  lemma SweepPreservesWellFormed(s: Submission, now: int, timeoutMs: int)
    requires WellFormed(s)
    ensures WellFormed(Sweep(s, now, timeoutMs).record)
  {
    var stale := Stale(s.slots.reviewers, now, timeoutMs);
    if IsActiveStatus(s.status) && stale != [] {
      OccupiedAfterRefresh(s.slots.reviewers, now, timeoutMs);
      SweepReviewers(s, now, timeoutMs);
    }
  }

  lemma {:induction false} NothingStaleAfterRefresh(rs: seq<Reviewer>, now: int, timeoutMs: int)
    ensures Stale(RefreshAll(rs, now, timeoutMs), now, timeoutMs) == []
  {
    var rs' := RefreshAll(rs, now, timeoutMs);
    NoStaleIff(rs', now, timeoutMs);
  }

  /** A second sweep at the same instant releases nothing and changes nothing. */
  lemma SweepIdempotent(s: Submission, now: int, timeoutMs: int)
    ensures var o := Sweep(s, now, timeoutMs);
            Sweep(o.record, now, timeoutMs) == SweepOutcome(o.record, [])
  {
    var o := Sweep(s, now, timeoutMs);
    if IsActiveStatus(s.status) && Stale(s.slots.reviewers, now, timeoutMs) != [] {
      NothingStaleAfterRefresh(s.slots.reviewers, now, timeoutMs);
    }
  }

  // ---------------------------------------------------------------------
  // The sweep as the script performs it

  /** The variables of the script's inner loop over one record's reviewers. */
  datatype Pass = Pass(
    reviewers: seq<Reviewer>,
    filled: int,
    history: Option<seq<HistoryEntry>>,
    timelines: Option<seq<TimelineEntry>>,
    modified: bool,
    released: seq<ReleasedSlot>)

  /** The loop body for reviewer `i`: skip `submitted` and `expired`, expire
      the reviewer if strictly more than the timeout has elapsed, and append
      the audit entries and the released slot. */
  function Visit(s: Submission, p: Pass, i: nat, now: int, timeoutMs: int): Pass
    requires i < |p.reviewers|
  {
    var r := p.reviewers[i];
    if r.status == SUBMITTED || r.status == EXPIRED then p
    else if !(now - r.claimedAt > timeoutMs) then p
    else Pass(
      p.reviewers[i := Expire(r, now)],
      p.filled - 1,
      Some(Entries(p.history) + [TimeoutEntry(r, now)]),
      Some(Entries(p.timelines) + [TimeoutEvent(r, now)]),
      true,
      p.released + [ReleasedSlot(s.title, r.userId, s.prNumber)])
  }

  /** The loop variables after visiting the first `i` reviewers agree with
      the reference definition applied to that prefix. */
  ghost predicate VisitedUpTo(s: Submission, now: int, timeoutMs: int, i: nat, p: Pass)
    requires i <= |s.slots.reviewers|
  {
    ReviewersVisited(s, now, timeoutMs, i, p) && LogsVisited(s, now, timeoutMs, Stale(s.slots.reviewers[..i], now, timeoutMs), p)
  }

  ghost predicate ReviewersVisited(s: Submission, now: int, timeoutMs: int, i: nat, p: Pass)
    requires i <= |s.slots.reviewers|
  {
    var rs := s.slots.reviewers;
    && |p.reviewers| == |rs|
    && (forall k :: 0 <= k < i ==> p.reviewers[k] == Refresh(rs[k], now, timeoutMs))
    && (forall k :: i <= k < |rs| ==> p.reviewers[k] == rs[k])
  }

  ghost predicate LogsVisited(s: Submission, now: int, timeoutMs: int, stale: seq<Reviewer>, p: Pass) {
    && (p.modified <==> stale != [])
    && p.filled == s.slots.filled - |stale|
    && (p.modified ==> p.history == Some(Entries(s.slots.history) + TimeoutEntries(stale, now)))
    && (!p.modified ==> p.history == s.slots.history)
    && (p.modified ==> p.timelines == Some(Entries(s.timelines) + TimeoutEvents(stale, now)))
    && (!p.modified ==> p.timelines == s.timelines)
    && p.released == ReleasedOf(s, stale)
  }

  lemma LogsStep(s: Submission, now: int, timeoutMs: int, stale: seq<Reviewer>, r: Reviewer, p: Pass)
    requires LogsVisited(s, now, timeoutMs, stale, p)
    ensures LogsVisited(s, now, timeoutMs, stale + [r],
              p.(filled := p.filled - 1,
                 history := Some(Entries(p.history) + [TimeoutEntry(r, now)]),
                 timelines := Some(Entries(p.timelines) + [TimeoutEvent(r, now)]),
                 modified := true,
                 released := p.released + [ReleasedSlot(s.title, r.userId, s.prNumber)]))
  {
    MappedSnoc(s, stale, r, now);
    assert Entries(p.history) == Entries(s.slots.history) + TimeoutEntries(stale, now);
    assert Entries(p.timelines) == Entries(s.timelines) + TimeoutEvents(stale, now);
    assert Entries(p.history) + [TimeoutEntry(r, now)] == Entries(s.slots.history) + TimeoutEntries(stale + [r], now);
    assert Entries(p.timelines) + [TimeoutEvent(r, now)] == Entries(s.timelines) + TimeoutEvents(stale + [r], now);
  }

  lemma VisitStep(s: Submission, now: int, timeoutMs: int, i: nat, p: Pass)
    requires i < |s.slots.reviewers|
    requires VisitedUpTo(s, now, timeoutMs, i, p)
    ensures VisitedUpTo(s, now, timeoutMs, i + 1, Visit(s, p, i, now, timeoutMs))
  {
    var rs := s.slots.reviewers;
    var r := rs[i];
    var stale := Stale(rs[..i], now, timeoutMs);
    StalePrefixStep(rs, i, now, timeoutMs);
    assert p.reviewers[i] == r;
    if TimedOut(r, now, timeoutMs) {
      LogsStep(s, now, timeoutMs, stale, r, p);
      var q := Visit(s, p, i, now, timeoutMs);
      assert q.filled == p.filled - 1;
      assert q.history == Some(Entries(p.history) + [TimeoutEntry(r, now)]);
      assert q.timelines == Some(Entries(p.timelines) + [TimeoutEvent(r, now)]);
      assert q.modified && q.released == p.released + [ReleasedSlot(s.title, r.userId, s.prNumber)];
    } else {
      assert stale + [] == stale;
      assert Visit(s, p, i, now, timeoutMs) == p;
    }
  }

  /** Once every reviewer is visited, the record the script writes is the
      reference sweep's record. */
  lemma VisitedAll(s: Submission, now: int, timeoutMs: int, p: Pass)
    requires IsActiveStatus(s.status)
    requires VisitedUpTo(s, now, timeoutMs, |s.slots.reviewers|, p)
    ensures var rec := if p.modified
              then s.(slots := s.slots.(reviewers := p.reviewers, filled := p.filled, history := p.history),
                      timelines := p.timelines, updatedAt := now)
              else s;
            SweepOutcome(rec, p.released) == Sweep(s, now, timeoutMs)
  {
    var rs := s.slots.reviewers;
    assert rs[..|rs|] == rs;
    if p.modified {
      assert p.reviewers == RefreshAll(rs, now, timeoutMs);
    } else {
      NoStaleIff(rs, now, timeoutMs);
    }
  }

  /** The inner loop of `checkAndReleaseTimeouts` over one record: reviewers
      are visited in list order, and the record is stamped with `now` only if
      some reviewer was expired. */
  method SweepSubmission(s: Submission, now: int, timeoutMs: int) returns (rec: Submission, released: seq<ReleasedSlot>)
    ensures SweepOutcome(rec, released) == Sweep(s, now, timeoutMs)
  {
    if !IsActiveStatus(s.status) {
      return s, [];
    }
    var p := Pass(s.slots.reviewers, s.slots.filled, s.slots.history, s.timelines, false, []);
    for i := 0 to |s.slots.reviewers|
      invariant VisitedUpTo(s, now, timeoutMs, i, p)
    {
      VisitStep(s, now, timeoutMs, i, p);
      p := Visit(s, p, i, now, timeoutMs);
    }
    VisitedAll(s, now, timeoutMs, p);
    if p.modified {
      rec := s.(slots := s.slots.(reviewers := p.reviewers, filled := p.filled, history := p.history),
                timelines := p.timelines, updatedAt := now);
    } else {
      rec := s;
    }
    released := p.released;
  }

  // ---------------------------------------------------------------------
  // The sweep over the whole store

  /** A store entry after the sweep: only readable `sub_*.json` records change. */
  function SweptEntry(e: StoreEntry, now: int, timeoutMs: int): StoreEntry {
    if IsSubmissionFileName(e.fileName) && e.doc.Valid? then e.(doc := Valid(Sweep(e.doc.value, now, timeoutMs).record))
    else e
  }

  /** The entry is written back: some slot of it was released. */
  predicate Rewritten(e: StoreEntry, now: int, timeoutMs: int) {
    IsSubmissionFileName(e.fileName) && e.doc.Valid? && Sweep(e.doc.value, now, timeoutMs).released != []
  }

  function SweptStore(store: Store, now: int, timeoutMs: int): Store {
    seq(|store|, i requires 0 <= i < |store| => SweptEntry(store[i], now, timeoutMs))
  }

  /** All released slots of a pass, in scan order. */
  function AllReleased(store: Store, now: int, timeoutMs: int): seq<ReleasedSlot>
    decreases |store|
  {
    if store == [] then []
    else
      var e := store[|store| - 1];
      AllReleased(store[..|store| - 1], now, timeoutMs)
      + (if IsSubmissionFileName(e.fileName) && e.doc.Valid? then Sweep(e.doc.value, now, timeoutMs).released else [])
  }

  datatype SweepReport = SweepReport(store: Store, releasedCount: nat, releasedSlots: seq<ReleasedSlot>, written: seq<nat>)

  /** `checkAndReleaseTimeouts`: every file is parsed first, so one unreadable
      file aborts the pass before anything is written; otherwise each record
      is swept and written back when a slot of it was released. */
  method CheckAndReleaseTimeouts(store: Store, now: int, timeoutDays: int) returns (r: Result<SweepReport, nat>)
    ensures r.Err? <==> exists i :: 0 <= i < |store| && Unreadable(store[i])
    ensures r.Err? ==> r.error < |store| && Unreadable(store[r.error])
    ensures r.Ok? ==> r.value.store == SweptStore(store, now, TimeoutMs(timeoutDays))
    ensures r.Ok? ==> r.value.releasedSlots == AllReleased(store, now, TimeoutMs(timeoutDays))
    ensures r.Ok? ==> r.value.releasedCount == |r.value.releasedSlots|
    ensures r.Ok? ==> forall i :: i in r.value.written <==> 0 <= i < |store| && Rewritten(store[i], now, TimeoutMs(timeoutDays))
  {
    var timeoutMs := TimeoutMs(timeoutDays);
    var listed := ListSubmissions(store);
    if listed.Err? {
      return Err(listed.error);
    }
    var out := store;
    var releasedCount := 0;
    var releasedSlots := [];
    var written: seq<nat> := [];
    for i := 0 to |store|
      invariant |out| == |store|
      invariant forall k :: 0 <= k < i ==> out[k] == SweptEntry(store[k], now, timeoutMs)
      invariant forall k :: i <= k < |store| ==> out[k] == store[k]
      invariant releasedSlots == AllReleased(store[..i], now, timeoutMs)
      invariant releasedCount == |releasedSlots|
      invariant forall k :: k in written <==> 0 <= k < i && Rewritten(store[k], now, timeoutMs)
    {
      assert store[..i + 1][..i] == store[..i];
      var e := store[i];
      if IsSubmissionFileName(e.fileName) {
        var rec, released := SweepSubmission(e.doc.value, now, timeoutMs);
        if released != [] {
          out := out[i := e.(doc := Valid(rec))];
          written := written + [i];
        }
        releasedCount := releasedCount + |released|;
        releasedSlots := releasedSlots + released;
        SweepAccounting(e.doc.value, now, timeoutMs);
      }
    }
    assert store[..|store|] == store;
    return Ok(SweepReport(out, releasedCount, releasedSlots, written));
  }

  /** Every record the sweep leaves behind still satisfies the review-slot invariant. */
  lemma SweptStoreWellFormed(store: Store, now: int, timeoutMs: int)
    requires forall i :: 0 <= i < |store| && store[i].doc.Valid? ==> WellFormed(store[i].doc.value)
    ensures var out := SweptStore(store, now, timeoutMs);
            forall i :: 0 <= i < |out| && out[i].doc.Valid? ==> WellFormed(out[i].doc.value)
  {
    forall i | 0 <= i < |store| && store[i].doc.Valid?
      ensures WellFormed(SweptEntry(store[i], now, timeoutMs).doc.value)
    {
      SweepPreservesWellFormed(store[i].doc.value, now, timeoutMs);
    }
  }

  /** The script's entry point. `timeoutArg` is the integer parsed from a
      `--timeout-days=` argument, absent when no such argument was given; the
      day count then defaults to two weeks. The exit status is 1 exactly
      when the pass aborts on an unreadable file, which leaves the store as
      it was; otherwise it is 0 and the store is the swept one. */
  method TimeoutsCommand(store: Store, now: int, timeoutArg: Option<int>)
    returns (code: int, timeoutDays: int, out: Store, released: seq<ReleasedSlot>)
    ensures timeoutArg.None? ==> timeoutDays == 14
    ensures timeoutArg.Some? ==> timeoutDays == timeoutArg.value
    ensures code == 0 || code == 1
    ensures code == 1 <==> exists i :: 0 <= i < |store| && Unreadable(store[i])
    ensures code == 1 ==> out == store && released == []
    ensures code == 0 ==> out == SweptStore(store, now, timeoutDays * DAY_MS)
    ensures code == 0 ==> released == AllReleased(store, now, timeoutDays * DAY_MS)
  {
    timeoutDays := timeoutArg.GetOr(DEFAULT_TIMEOUT_DAYS);
    var r := CheckAndReleaseTimeouts(store, now, timeoutDays);
    match r
    case Err(_) =>
      return 1, timeoutDays, store, [];
    case Ok(report) =>
      return 0, timeoutDays, report.store, report.releasedSlots;
  }
}
